=== FILE: README.md ===
# systemd-doctor, modelled in Dafny

systemd-doctor watches systemd services. Each tick, it samples every configured service's CPU
load and resident memory. It does this from `pgrep`, `/proc/<pid>/stat`, `/proc/uptime` and
`/proc/<pid>/status`, and reads host memory from `/proc/meminfo` and disk space from `df`.
It appends one CSV row per tick to a memory log and a CPU log. Separate loops tail `journalctl`
for each service and for the kernel, keeping a "since" watermark.

This project models those parts as pure functions. Every file read, command run, clock reading
and file write is an input:

- a command outcome is `Os.Exec`: not started, or exited with a status, stdout and stderr;
- a `/proc` file is an `Option<string>`, or a map from pid to contents, where a missing key is
  a file that could not be read or a process that vanished.

| file | module | models |
|---|---|---|
| `wrappers.dfy` | `Wrappers`, `Os` | `Option`, `Result` with `:-`, map lookup, command outcomes |
| `text.dfy` | `Text` | `split_whitespace`, `trim`, `str::lines`, `starts_with` |
| `numbers.dfy` | `Numbers` | `u64`/`u32` parsing and printing, `f64` parsing, printing a one-decimal float |
| `proc_parsers.dfy` | `ProcParsers` | the `/proc`, `pgrep` and `df` parsers of `cmd_health_check.rs` |
| `samplers.dfy` | `Samplers` | the CPU formula, the one-decimal truncation, `cmd_check_cpu_load`, `cmd_check_memory_usage_mb` |
| `csv_log.dfy` | `CsvLog` | the CSV `LogWriter` of `log.rs`: path choice and `write_record` |
| `health_monitor.dfy` | `HealthMonitor` | one tick of `start_monitor_memory` and `start_monitor_cpuload` |
| `journal_log.dfy` | `JournalLog` | the `journalctl` fetch, the watermark step of the tailing loops, `write_log` |

`log.rs` and `journal_log.rs` contain the same `extract_*_logs` functions and the same two
tailing loops, character for character. They are modelled once, in `JournalLog`.

Modelling choices:

- A Rust panic is the error `Panicked`. This covers indexing past the end of the stat fields
  and the `u64` subtraction in the disk query, taken as built with overflow checks. A tick whose sampler panics ends in `Crashed`:
  the panic unwinds out of `start_monitor_*`, so no "N/A" cell is written for it. Whether that
  ends a thread or the whole program depends on the caller, which is not part of this model.
- `f32` and `f64` are `real`. `(x * 10.0).trunc() / 10.0` is `Samplers.Trunc1`, and the
  `Display` of such a value is `Numbers.ShowTenths`.
- `SystemTime` is seconds and nanoseconds. Its `Debug` text is the Linux form
  `SystemTime { tv_sec: S, tv_nsec: N }`.
- The tailing loops take the `--since` format as a parameter, `JournalLog.SinceFormat`. The code
  uses `DebugText`; `EpochSeconds` is the corrected form of the finding below.

Behaviour of the code that a reader may not expect:

- `calculate_cpu_usage` divides the tick growth by `elapsed * 100` and never multiplies by 100.
  The value is therefore a fraction of one core at 100 ticks per second (1.0 is one busy core),
  not a percentage.
- A pid whose `/proc/<pid>/stat` or `/proc/<pid>/status` cannot be read fails the whole CPU or
  memory sample. It is not skipped.
- The watermark becomes the clock reading taken after the fetch returned, not the moment the
  request was issued. It advances on every successful fetch, even one that returned no text.
- The `--since` argument is the `Debug` text `SystemTime { tv_sec: S, tv_nsec: N }`, which is
  none of the timestamp forms of systemd.time(7). A journalctl that refuses it fails every
  fetch, so the watermark never leaves its start and the successful branch is never reached
  (`JournalLog.RunStuckOnDebugText`; see "## Findings").
- `pgrep` exits with status 1 when nothing matches. The "not found" error is therefore reached
  only when `pgrep` succeeds but prints no pids. Otherwise the error is a failed command carrying
  stderr.

## Model

| member | source | states |
|---|---|---|
| ProcParsers.MeminfoValue | systemd-doctor/src/cmd_health_check.rs:26-35 | the MB value is the floor of the second whitespace token (a `u64` of kB) divided by 1024; it is 0 when that token is missing or not a `u64` |
| ProcParsers.MeminfoValueOfLine | systemd-doctor/src/cmd_health_check.rs:26-35 | a line printed as key, padding, `N`, " kB" reads back as `N / 1024` MB |
| ProcParsers.ParseMeminfo | systemd-doctor/src/cmd_health_check.rs:37-70 | an unreadable file is the only error; each of the five fields is the value of the last line starting with its exact key, or 0 when no line does |
| ProcParsers.ScanTakesLastMatch | systemd-doctor/src/cmd_health_check.rs:47-61 | over any list of lines, the `else if` chain leaves each field at the value of its key's last matching line, or 0 |
| ProcParsers.OtherLineIgnored | systemd-doctor/src/cmd_health_check.rs:50-60 | inserting a line that starts with none of the five keys, anywhere, leaves the parsed values unchanged |
| ProcParsers.SwapCachedIgnored | systemd-doctor/src/cmd_health_check.rs:58-59 | a "SwapCached:" line never feeds the Cached column, because matching is by exact prefix |
| ProcParsers.ReadStat | systemd-doctor/src/cmd_health_check.rs:142-156 | a readable file succeeds iff it has at least 15 whitespace fields and fields 13 and 14 parse as `u64`, and the results are those two values; an unreadable file is ReadFailed; too few fields is a panic or a parse failure |
| ProcParsers.ReadStatOfFields | systemd-doctor/src/cmd_health_check.rs:146-155 | a stat line as the kernel prints it for a command name without whitespace, fields parted by single spaces and ended by a newline, whose fields 13 and 14 are printed counters reads back as exactly those counters |
| ProcParsers.ReadStatShiftsOnSpacedName | systemd-doctor/src/cmd_health_check.rs:146-155 | the code as written: for a command name "(a b)" the whitespace split shifts every later field by one, so cmajflt and utime are read as utime and stime |
| ProcParsers.ReadUptime | systemd-doctor/src/cmd_health_check.rs:158-169 | the result is the first token parsed as a float; blank contents give 0.0; an unreadable file is ReadFailed |
| ProcParsers.ReadUptimeOfText | systemd-doctor/src/cmd_health_check.rs:158-169 | a file starting with the uptime printed as whole seconds, a dot and fraction digits (the kernel prints two), then whitespace, reads back as that decimal value |
| ProcParsers.ServicePids | systemd-doctor/src/cmd_health_check.rs:122-140 | a spawn failure or a failed exit is an error carrying stderr; otherwise there is one pid per whitespace token, equal to the token's `u32` value, or 0 when it does not parse |
| ProcParsers.ServicePidsReadsPgrep | systemd-doctor/src/cmd_health_check.rs:122-140 | pids that pgrep prints one per line are read back as exactly those pids, in order |
| ProcParsers.PidTokens | systemd-doctor/src/cmd_health_check.rs:199-212 | the memory sampler's pid list is the whitespace tokens of pgrep's stdout; trimming first changes nothing |
| ProcParsers.StatusRss | systemd-doctor/src/cmd_health_check.rs:222-234 | a status file without "VmRSS:" lines gives 0; the only failures are a missing value and a non-number |
| ProcParsers.StatusRssSucceedsIff | systemd-doctor/src/cmd_health_check.rs:222-234 | the read succeeds iff every line's contribution does: each "VmRSS:" line has a second token that parses as `u64` |
| ProcParsers.StatusRssAppend | systemd-doctor/src/cmd_health_check.rs:222-234 | a status file read in two parts: the first part's failure wins, then the second's, and otherwise the kB of the two parts add up |
| ProcParsers.StatusRssOfLine | systemd-doctor/src/cmd_health_check.rs:222-234 | a status file whose one "VmRSS:" line, anywhere among other lines and with any right-aligning padding, prints `N` kB reports exactly `N` |
| ProcParsers.DiskSpace | systemd-doctor/src/cmd_health_check.rs:243-266 | the code as written: an error unless the output has exactly 3 tokens; with 3 tokens the outcome is `DiskFigures` of the first two, so on success total and available are tokens 0 and 1 as `u64`, and free + available = total |
| ProcParsers.DiskFigures | systemd-doctor/src/cmd_health_check.rs:260-265 | succeeds exactly when both figures parse as `u64` and the second does not exceed the first; a figure that does not parse is `ParseFailed`, an available figure above the total panics in the `u64` subtraction (with overflow checks on); on success the triple is the two figures and their difference |
| ProcParsers.DiskSpaceRejectsDfOutput | systemd-doctor/src/cmd_health_check.rs:246-258 | every last line that `df / --output=size,avail` can print, with any leading padding and any blank gap between the right-aligned figures, is rejected by the three-token check |
| ProcParsers.DiskSpaceTwoColumns | systemd-doctor/src/cmd_health_check.rs:243-266 | the corrected check on two tokens: the same error cases, and with 2 tokens the outcome is `DiskFigures` of them |
| ProcParsers.DiskSpaceTwoColumnsReadsDfOutput | systemd-doctor/src/cmd_health_check.rs:246-265 | with the corrected check, every line df prints, with any padding and gap, reads back as (size, avail, size - avail) |
| Samplers.Trunc1 | systemd-doctor/src/cmd_health_check.rs:117 | the result is a whole number of tenths, truncated toward zero: within 0.1 of the input and never farther from zero |
| Samplers.Trunc1IsLargestTenthBelow | systemd-doctor/src/cmd_health_check.rs:117 | for a non-negative input, no whole number of tenths at or below the input exceeds the result: it rounds down, not to nearest |
| Samplers.Trunc1Idempotent | systemd-doctor/src/cmd_health_check.rs:117 | a value already in tenths is unchanged, so truncating twice equals truncating once |
| Samplers.Trunc1Example | systemd-doctor/src/cmd_health_check.rs:116-117 | 12.37 becomes 12.3, not 12.4 |
| Samplers.CpuUsage | systemd-doctor/src/cmd_health_check.rs:171-189 | exactly 0 when the uptime did not advance; otherwise the result times `elapsed * 100` equals the growth of utime + stime; negative exactly when time advanced and the counters went backwards |
| Samplers.CpuUsageOneCoreExample | systemd-doctor/src/cmd_health_check.rs:178-185 | 100 ticks over one second give 1.0, not 100: the value is a fraction of one core |
| Samplers.ReadStatsReadsEveryPid | systemd-doctor/src/cmd_health_check.rs:89-103 | a snapshot succeeds iff every pid's stat reads; on success it holds each pid's counters in pid order; otherwise it fails with the first failing pid's error |
| Samplers.SumUsageNonNegative | systemd-doctor/src/cmd_health_check.rs:106-114 | when no pid's counters went backwards, the summed usage is not negative |
| Samplers.SumUsageNoElapsed | systemd-doctor/src/cmd_health_check.rs:106-114 | when the uptime did not advance, the summed usage is exactly 0 |
| Samplers.CheckCpuLoad | systemd-doctor/src/cmd_health_check.rs:76-120 | a pgrep error is passed through; an empty pid list is "Service … not found"; a success is a whole number of tenths |
| Samplers.CheckCpuLoadOfReads | systemd-doctor/src/cmd_health_check.rs:76-120 | once pgrep names at least one pid and both stat snapshots and both uptimes read, the sample succeeds with the per-pid sum truncated toward zero to a tenth |
| Samplers.CheckCpuLoadNeedsEveryPid | systemd-doctor/src/cmd_health_check.rs:89-104 | a pid missing from either snapshot fails the whole sample: no pid is skipped |
| Samplers.CheckCpuLoadValue | systemd-doctor/src/cmd_health_check.rs:106-119 | on success, both snapshots and both uptimes read and the load is the per-pid sum truncated toward zero to tenths, whatever its sign; it is 0 when time did not advance, and lies at most 0.1 below a non-negative sum when counters did not regress |
| Samplers.TotalRss | systemd-doctor/src/cmd_health_check.rs:218-235 | the sum succeeds iff every pid's VmRSS read succeeds; any pid whose status file is missing fails the whole sum |
| Samplers.TotalRssAppend | systemd-doctor/src/cmd_health_check.rs:218-235 | the total over a concatenated pid list is the sum of the totals over its parts |
| Samplers.CheckMemoryUsageMb | systemd-doctor/src/cmd_health_check.rs:192-241 | pgrep errors pass through; no pids gives "not found"; a vanished pid fails the call; on success the result is the kB total / 1024 truncated to tenths (at most 0.1 below the exact MB) |
| Samplers.MemoryUsageOfTwoPids | systemd-doctor/src/cmd_health_check.rs:208-240 | two pids printed by pgrep one per line whose status files report kbA and kbB kB of VmRSS give (kbA + kbB) / 1024 MB truncated to one decimal |
| Samplers.PidTokensOfPgrep | systemd-doctor/src/cmd_health_check.rs:199-212 | the pids that pgrep prints one per line are the memory sampler's pid tokens, in order |
| Samplers.PidRssOfStatus | systemd-doctor/src/cmd_health_check.rs:218-234 | a status file whose one "VmRSS:" line, among any other lines and with any padding, prints `kb` kB yields exactly `kb` for its pid |
| Samplers.TotalRssTwo | systemd-doctor/src/cmd_health_check.rs:218-235 | the total over two pids whose VmRSS reads succeed is the sum of the two values |
| Samplers.MemoryUsageExample | systemd-doctor/src/cmd_health_check.rs:237-240 | 1024 kB plus 2048 kB of VmRSS report 3.0 MB |
| CsvLog.PushPathComponents | systemd-doctor/src/log.rs:22-24 | pushing a name onto a non-empty directory gives the directory, one '/' unless it already ends in one, and the name, which is then the path's last component |
| CsvLog.DefaultPath | systemd-doctor/src/log.rs:21-25 | with a non-empty current directory, the default log path is that directory, one '/' unless it already ends in one, and "DrViet_health_log.csv" |
| CsvLog.New | systemd-doctor/src/log.rs:18-40 | a given path is used as is; without one, the path is the current directory, one '/' unless it already ends in one, and "DrViet_health_log.csv"; an unreadable current directory panics; an open failure is an error; the writer starts with the file's existing records |
| CsvLog.WriteRecord | systemd-doctor/src/log.rs:47-51 | succeeds iff the CSV write succeeds, and then appends exactly the one record and keeps the others |
| CsvLog.WriteRecordIgnoresFlush | systemd-doctor/src/log.rs:49 | the flush outcome never changes the result |
| HealthMonitor.ServiceColumns | systemd-doctor/src/health_monitor.rs:50-54 | one "<service>(MB)" column per configured service, in configuration order |
| HealthMonitor.WriteHeaderIfEmpty | systemd-doctor/src/health_monitor.rs:39-58 | a metadata failure is an error; an empty file receives exactly the header, and a failed header write is a write error; a non-empty file is left as it is |
| HealthMonitor.SampleCellReports | systemd-doctor/src/health_monitor.rs:74-79 | a sample cell is "N/A" iff the sample failed; otherwise it parses back to the sampled value |
| HealthMonitor.MonitorMemory | systemd-doctor/src/health_monitor.rs:38-92 | existing records are kept; the header is added only to an empty file; one row is added iff meminfo was read, and it is the timestamp, the five meminfo values and one cell per service; a meminfo failure still succeeds; a tick whose metadata and writes succeed and whose samplers do not panic succeeds; a failed header write, or a failed row write when a row is due, is a write error; a panicking sampler crashes the tick |
| HealthMonitor.MonitorMemoryKeepsLayout | systemd-doctor/src/health_monitor.rs:38-92 | a tick on a log that is empty or starts with the header leaves it starting with the header, and the row it appends is as wide as the header with each service's sample or "N/A" under that service's column |
| HealthMonitor.MemoryRowMatchesHeader | systemd-doctor/src/health_monitor.rs:40-82 | the row is as wide as the header; the timestamp comes first; each host memory cell reads back as its value; under "<service>(MB)" stands that same service's sample or "N/A" |
| HealthMonitor.MeminfoCellsReadBack | systemd-doctor/src/health_monitor.rs:63-70 | the five host memory cells parse back as the five meminfo values |
| HealthMonitor.MemoryRowIsolatesFailure | systemd-doctor/src/health_monitor.rs:72-82 | changing one service's sample, for instance to a failure, changes only that service's column |
| HealthMonitor.MemoryHeaderWrittenOnce | systemd-doctor/src/health_monitor.rs:39-84 | two ticks on an empty log write the header once, then one row per tick |
| HealthMonitor.MonitorCpuLoad | systemd-doctor/src/health_monitor.rs:94-126 | the header is added only to an empty file; a row is added iff services are configured, and it is the timestamp and one cell per service; without services the tick never fails after the header; a tick whose metadata and writes succeed and whose samplers do not panic succeeds; a failed header write, or a failed row write when a row is due, is a write error; a panicking sampler crashes the tick |
| HealthMonitor.MonitorCpuLoadKeepsLayout | systemd-doctor/src/health_monitor.rs:94-126 | a tick on a log that is empty or starts with the header leaves it starting with the header, and a row it appends is as wide as the header with each service's load or "N/A" under that service's column |
| HealthMonitor.CpuRowMatchesHeader | systemd-doctor/src/health_monitor.rs:96-119 | the CPU row is as wide as the header; under "<service>(MB)" stands that service's load or "N/A" |
| HealthMonitor.CpuRowIsolatesFailure | systemd-doctor/src/health_monitor.rs:110-119 | changing one service's sample changes only that service's CPU column |
| HealthMonitor.CpuWithoutServicesWritesOnlyHeader | systemd-doctor/src/health_monitor.rs:95-123 | without a service list, the first tick writes only the header and later ticks write nothing |
| Numbers.ParseShowTenths | systemd-doctor/src/health_monitor.rs:75 | a one-decimal value printed into a cell parses back to the same value |
| Text.SplitIgnoresTrim | systemd-doctor/src/cmd_health_check.rs:133-137 | trimming before splitting on whitespace never changes the tokens |
| JournalLog.SinceInjective | systemd-doctor/src/log.rs:92 | distinct watermarks format to distinct `--since` texts |
| JournalLog.DebugTextRefused | systemd-doctor/src/log.rs:92 | the `Debug` text of any watermark begins with none of the forms a systemd timestamp can begin with |
| JournalLog.EpochSecondsAccepted | systemd-doctor/src/log.rs:92 | the corrected `--since` text of any watermark is "@" and digits, the epoch-seconds form |
| JournalLog.FetchCommandAsksForStream | systemd-doctor/src/log.rs:57-84 | the journalctl command line asks for the given unit's (or the kernel's) entries since the given text, without a pager |
| JournalLog.FetchCommandNamesWatermark | systemd-doctor/src/log.rs:111-112 | two fetches issue the same command only when their watermarks are equal |
| JournalLog.Extract | systemd-doctor/src/log.rs:65-70 | succeeds iff journalctl ran and exited successfully, yielding its stdout; a failed exit is an error carrying stderr; a spawn failure is its own error |
| JournalLog.Step | systemd-doctor/src/log.rs:90-100 | the fetch is the one for the current watermark, printed in the given format; on success the watermark becomes the clock reading taken after the fetch; on failure it is kept |
| JournalLog.StepAdvancesOnEmptyOutput | systemd-doctor/src/journal_log.rs:70-74 | a successful fetch that returned no text still moves the watermark to the clock |
| JournalLog.StepKeepsWatermarkOnError | systemd-doctor/src/journal_log.rs:75 | a spawn failure or a failed exit leaves the watermark where it was |
| JournalLog.StepDependsOnlyOnItsFetch | systemd-doctor/src/journal_log.rs:69-70 | an iteration depends on the outside world only through the command for the current watermark |
| JournalLog.RunNeverDecreases | systemd-doctor/src/log.rs:87-102 | for either `--since` format, with a clock that never goes back and a start no later than the first reading, the watermarks never decrease and never pass the clock |
| JournalLog.RunStuckOnDebugText | systemd-doctor/src/log.rs:87-102 | the code as written: when every journalctl run refuses texts that cannot be timestamps, every watermark of the loop equals its start |
| JournalLog.RunFollowsClockWithEpochSeconds | systemd-doctor/src/log.rs:87-102 | the corrected loop: when every journalctl run reads epoch seconds, each watermark is its iteration's clock reading |
| JournalLog.WriteLog | systemd-doctor/src/journal_log.rs:22-32 | an open failure is an error; whitespace-only text leaves the file unchanged (created if absent); other text is appended with exactly one newline, iff the write succeeds |
| JournalLog.WriteLogDropsBlankOutput | systemd-doctor/src/journal_log.rs:28 | any output of only blanks and line breaks leaves the file as it was (empty when it did not exist), whatever the write outcome |
| JournalLog.WriteLogAppends | systemd-doctor/src/journal_log.rs:29 | written text keeps the old contents as a prefix and ends the file with a line break |

## Left out

- All real I/O: opening files, reading `/proc`, file metadata, and running `pgrep`, `df` and
  `journalctl`. Their outcomes are inputs.
- Threads, the infinite loops and `sleep`. One loop iteration is a step function; several
  iterations are `JournalLog.Run`.
- `log4rs`, `info!`, `eprintln!` and the error message texts. Errors are datatype values, and
  a successful fetch's text is returned rather than logged.
- chrono's timestamp formatting. The timestamp cell is an input string.
- How `journalctl` parses the `--since` text, beyond its leading forms. `MayBeTimestamp` is only
  a necessary condition drawn from systemd.time(7). journalctl is taken to refuse any text that
  fails it (`RefusesNonTimestamps`) and to read epoch seconds (`AcceptsEpochSeconds`), neither
  of which is executed. `EpochSeconds` drops the nanoseconds, so a corrected fetch can repeat
  entries from the watermark's own second; that repetition is not modelled.
- IEEE rounding of `f32`/`f64`, negative zero, and exponent, `inf` and `nan` forms of float
  parsing. Values are exact reals.
- Samplers.TotalRss: the `u64` sum of VmRSS values and the sum of tick counters do not wrap or
  overflow. They are unbounded here, because a real system cannot reach 2^64 kB or ticks.
- ProcParsers.DiskFigures: models a build with overflow checks on (Rust's debug profile), where
  `total - avail` with avail above total panics. A release build wraps instead, returning
  2^64 - (avail - total) as the free space; that outcome is not modelled.
- ProcParsers.ReadStatOfFields: covers only command names without whitespace. The kernel prints
  the name in parentheses as it is, so a name such as "(Web Content)" shifts every later field,
  and the code then reads cmajflt and utime as utime and stime (`ReadStatShiftsOnSpacedName`).
  `ReadStat` models that behaviour as written; a reader that counts fields after the last ')'
  is not modelled.
- CsvLog.WriteRecordIgnoresFlush: a failed flush is treated as if the record reached the file.
  In the program the record can stay in the CSV writer's buffer, leaving the file empty, and the
  next tick's length-0 test would then write the header again. The writer's buffer is not
  modelled separately from the file's records, so `MemoryHeaderWrittenOnce` and
  `WriteHeaderIfEmpty` assume every successful write reaches the file.
- HealthMonitor.MonitorMemory: one `writeOk` outcome stands for both the header write and the
  row write. The header already written by a tick that then crashes is not kept in the result.
- HealthMonitor.MonitorCpuLoad: the same single `writeOk`, and the same loss of a header
  written before a crash.
- `get_cpu_temperature`, `get_log_file_path` and `log_info`: a sysfs read scaled by 1000, a
  getter, and a logging call.
- `LogWriter::new` of journal_log.rs: its only effect is initialising log4rs.
- `HealthMonitor::new` and the compile-level mismatches around it: the tuple destructuring of
  `LogWriter::new()` and the one-argument call of `cmd_check_memory_usage_mb`. The per-call
  behaviour is modelled instead.
- systemd-doctor/src/sys_health_check.rs, health_check.rs, config.rs, config_parsing.rs and
  main.rs, and service_test_2, are not part of this model. They are a wrapper over the sysinfo
  crate, a shell pipeline, configuration deserialisation, the entry point and a load
  generator.
- `str::lines` follows current Rust: a trailing "\r" is dropped only before a "\n". Tokenising
  splits on the Unicode White_Space set, over `char`s.

## Findings

| source | as written | input that shows it | evidently intended | confidence | as-written member | corrected member |
|---|---|---|---|---|---|---|
| systemd-doctor/src/cmd_health_check.rs:246-258 | the last line of `df / --output=size,avail` must split into exactly 3 tokens | any output df can print, e.g. " 1000 400\n", splits into 2 tokens, so the query always fails with "Failed to parse command output" | read the two printed figures (size, avail) and return (size, avail, size - avail) | high that the check cannot pass for this command line; not executed | ProcParsers.DiskSpaceRejectsDfOutput | ProcParsers.DiskSpaceTwoColumnsReadsDfOutput |
| systemd-doctor/src/log.rs:92 | `--since` receives `format!("{:?}", last_fetch_time)` (the same line is journal_log.rs:69), the text `SystemTime { tv_sec: S, tv_nsec: N }` | any watermark: its text begins with "Sy", which begins no timestamp form of systemd.time(7), so a journalctl that refuses it fails every fetch and the watermark never moves | a `--since` form journalctl reads, such as "@" and the epoch seconds, so that each successful fetch moves the watermark to the clock | medium; journalctl's refusal of the text is assumed from systemd.time(7); not executed | JournalLog.RunStuckOnDebugText | JournalLog.RunFollowsClockWithEpochSeconds |

=== FILE: csv_log.dfy ===
/** The CSV `LogWriter` of log.rs: where the file lives and how one record is appended.
    The file is modelled as the list of records it holds. */
module CsvLog {
  import opened Wrappers

  /** An open CSV log: its path and the records already in the file. */
  datatype LogWriter = LogWriter(path: string, records: seq<seq<string>>)

  datatype LogError =
    | OpenFailed      // the file could not be opened or created
    | WriteFailed     // the CSV writer rejected the record
    | CwdPanicked     // `env::current_dir().expect(..)` panics

  const DefaultFileName := "DrViet_health_log.csv"

  /** `PathBuf::push` of a relative name: a '/' is inserted unless the directory is empty or
      already ends with one. */
  function PushPath(dir: string, name: string): string {
    if |dir| == 0 || dir[|dir| - 1] == '/' then dir + name else dir + "/" + name
  }

  /** The text after the last '/' of a path. */
  function FileName(path: string): (name: string)
    ensures '/' !in name
    decreases |path|
  {
    if |path| == 0 then []
    else if path[|path| - 1] == '/' then []
    else FileName(path[..|path| - 1]) + [path[|path| - 1]]
  }

  lemma {:induction false} FileNameAfterSlash(dir: string, name: string)
    requires '/' !in name
    requires |dir| > 0 && dir[|dir| - 1] == '/'
    ensures FileName(dir + name) == name
    decreases |name|
  {
    if |name| == 0 {
      assert dir + name == dir;
    } else {
      var p := dir + name;
      assert p[..|p| - 1] == dir + name[..|name| - 1];
      assert p[|p| - 1] == name[|name| - 1];
      FileNameAfterSlash(dir, name[..|name| - 1]);
      assert name[..|name| - 1] + [name[|name| - 1]] == name;
    }
  }

  /** The pushed path lies in `dir` and its last component is `name`. */
  lemma PushPathComponents(dir: string, name: string)
    requires '/' !in name
    ensures |dir| > 0 ==>
            var p := PushPath(dir, name);
            && dir <= p
            && FileName(p) == name
            && |p| == |dir| + |name| + (if dir[|dir| - 1] == '/' then 0 else 1)
  {
    if |dir| == 0 {
    } else if dir[|dir| - 1] == '/' {
      FileNameAfterSlash(dir, name);
    } else {
      assert dir + "/" + name == (dir + "/") + name;
      FileNameAfterSlash(dir + "/", name);
    }
  }

  /** The path used when no log file is given: `dir`, one separator unless `dir` already
      ends in '/', then the file name, and nothing else. */
  function DefaultPath(dir: string): (path: string)
    ensures |dir| > 0 ==>
              && dir <= path
              && FileName(path) == DefaultFileName
              && |path| == |dir| + |DefaultFileName| + (if dir[|dir| - 1] == '/' then 0 else 1)
  {
    PushPathComponents(dir, DefaultFileName);
    PushPath(dir, DefaultFileName)
  }

  /** `LogWriter::new`: the given path, or the current directory joined with
      "DrViet_health_log.csv". `cwd` is `None` when the current directory cannot be read;
      `existing` is the file's prior records, or `None` when it cannot be opened. */
  function New(logFile: Option<string>, cwd: Option<string>, existing: Option<seq<seq<string>>>): (r: Result<LogWriter, LogError>)
    ensures logFile.Some? && existing.Some? ==> r == Success(LogWriter(logFile.value, existing.value))
    ensures logFile.None? && cwd.None? ==> r == Failure(CwdPanicked)
    ensures logFile.None? && cwd.Some? && |cwd.value| > 0 && existing.Some? ==>
              && r.Success?
              && cwd.value <= r.value.path
              && FileName(r.value.path) == DefaultFileName
              && |r.value.path| == |cwd.value| + |DefaultFileName|
                                   + (if cwd.value[|cwd.value| - 1] == '/' then 0 else 1)
    ensures (logFile.Some? || cwd.Some?) && existing.None? ==> r == Failure(OpenFailed)
    ensures r.Success? ==> r.value.records == existing.value
  {
    var path :- match logFile
                case Some(p) => Success(p)
                case None =>
                  match cwd
                  case None => Failure(CwdPanicked)
                  case Some(dir) => Success(DefaultPath(dir));
    match existing
    case None => Failure(OpenFailed)
    case Some(records) => Success(LogWriter(path, records))
  }

  /** `write_record`: appends exactly one record, then flushes; a failed flush is ignored,
      so the outcome does not depend on `flushOk`. The record is counted as part of the file
      even then: the writer's buffer is not told apart from the file. */
  function WriteRecord(w: LogWriter, record: seq<string>, writeOk: bool, flushOk: bool): (r: Result<LogWriter, LogError>)
    ensures writeOk <==> r.Success?
    ensures r.Success? ==>
              && r.value.path == w.path
              && |r.value.records| == |w.records| + 1
              && r.value.records[..|w.records|] == w.records
              && r.value.records[|w.records|] == record
    ensures r.Failure? ==> r.error == WriteFailed
  {
    if !writeOk then Failure(WriteFailed)
    else Success(w.(records := w.records + [record]))
  }

  /** The flush outcome never changes what `write_record` returns. */
  lemma WriteRecordIgnoresFlush(w: LogWriter, record: seq<string>, writeOk: bool)
    ensures WriteRecord(w, record, writeOk, true) == WriteRecord(w, record, writeOk, false)
  {
  }
}

=== FILE: health_monitor.dfy ===
/** One tick of `HealthMonitor::start_monitor_memory` and `start_monitor_cpuload`: the CSV
    header written to an empty log, and the row of one sample per configured service. The
    clock reading, the meminfo parse and the per-service samples are inputs. */
module HealthMonitor {
  import opened Wrappers
  import opened Numbers
  import opened ProcParsers
  import opened CsvLog

  const TimestampColumn := "Timestamp"
  const MemoryColumns := ["Total Memory(MB)", "Free Memory(MB)", "Available Memory(MB)",
                          "Buffers Memory(MB)", "Cached Memory(MB)"]
  const NotAvailable := "N/A"

  /** The configured services; an absent service list tracks none. */
  function Tracked(services: Option<seq<string>>): seq<string> {
    services.GetOr([])
  }

  /** One "<service>(MB)" column per service, in configuration order. */
  function ServiceColumns(services: seq<string>): (cols: seq<string>)
    ensures |cols| == |services|
    ensures forall k | 0 <= k < |services| :: cols[k] == services[k] + "(MB)"
  {
    seq(|services|, k requires 0 <= k < |services| => services[k] + "(MB)")
  }

  /** The cell of one service sample: the value printed, or "N/A" when sampling failed. */
  function SampleCell(sample: Result<real, SampleError>): string {
    match sample
    case Success(v) => ShowTenths(v)
    case Failure(_) => NotAvailable
  }

  function SampleCells(samples: seq<Result<real, SampleError>>): (cells: seq<string>)
    ensures |cells| == |samples|
    ensures forall k | 0 <= k < |samples| :: cells[k] == SampleCell(samples[k])
  {
    seq(|samples|, k requires 0 <= k < |samples| => SampleCell(samples[k]))
  }

  /** A sample whose computation panicked: the source never gets to write a cell for it. */
  predicate AnyPanicked(samples: seq<Result<real, SampleError>>) {
    exists k | 0 <= k < |samples| :: samples[k] == Failure(Panicked)
  }

  /** How a tick can fail: the file's metadata could not be read, a write failed, or a sampler
      panicked and took the thread down. */
  datatype TickError = MetadataFailed | WriteError(e: LogError) | Crashed

  /** `write_record` with the error wrapped; the flush outcome is irrelevant. */
  function Write(log: LogWriter, record: seq<string>, writeOk: bool): Result<LogWriter, TickError> {
    match WriteRecord(log, record, writeOk, true)
    case Success(l) => Success(l)
    case Failure(e) => Failure(WriteError(e))
  }

  /** The header, written only when the file is still empty. */
  function WriteHeaderIfEmpty(log: LogWriter, header: seq<string>, metadataOk: bool, writeOk: bool): (r: Result<LogWriter, TickError>)
    ensures !metadataOk ==> r == Failure(MetadataFailed)
    ensures r.Success? ==> r.value.path == log.path
    ensures r.Success? && |log.records| == 0 ==> r.value.records == [header]
    ensures r.Success? && |log.records| > 0 ==> r.value.records == log.records
    ensures metadataOk && (writeOk || |log.records| > 0) ==> r.Success?
    ensures metadataOk && !writeOk && |log.records| == 0 ==> r == Failure(WriteError(WriteFailed))
  {
    if !metadataOk then Failure(MetadataFailed)
    else if |log.records| == 0 then Write(log, header, writeOk)
    else Success(log)
  }

  // ---------------------------------------------------------------------------
  // Memory

  /** "Timestamp", the five host memory columns, then one column per service. */
  function MemoryHeader(services: Option<seq<string>>): seq<string> {
    [TimestampColumn] + MemoryColumns + ServiceColumns(Tracked(services))
  }

  function MeminfoCells(m: MemInfo): seq<string> {
    [ShowNat(m.total), ShowNat(m.free), ShowNat(m.available), ShowNat(m.buffers), ShowNat(m.cached)]
  }

  /** The timestamp, the five host memory values, then the samples in service order. */
  function MemoryRow(timestamp: string, m: MemInfo, samples: seq<Result<real, SampleError>>): seq<string> {
    [timestamp] + MeminfoCells(m) + SampleCells(samples)
  }

  /** `start_monitor_memory`: header if the file is empty, then a row unless `/proc/meminfo`
      failed, in which case the tick still succeeds. `samples[k]` is the outcome of
      `cmd_check_memory_usage_mb` for the k-th service. */
  function MonitorMemory(log: LogWriter, metadataOk: bool, writeOk: bool, services: Option<seq<string>>,
                         timestamp: string, meminfo: Result<MemInfo, SampleError>,
                         samples: seq<Result<real, SampleError>>): (r: Result<LogWriter, TickError>)
    requires |samples| == |Tracked(services)|
    ensures !metadataOk ==> r == Failure(MetadataFailed)
    ensures r.Success? ==> r.value.path == log.path && log.records <= r.value.records
    ensures r.Success? ==>
              |r.value.records| == |log.records| + (if |log.records| == 0 then 1 else 0)
                                                  + (if meminfo.Success? then 1 else 0)
    ensures r.Success? && |log.records| == 0 ==> r.value.records[0] == MemoryHeader(services)
    ensures r.Success? && meminfo.Success? ==>
              r.value.records[|r.value.records| - 1] == MemoryRow(timestamp, meminfo.value, samples)
    ensures r.Success? && meminfo.Success? ==>
              |r.value.records[|r.value.records| - 1]| == |MemoryHeader(services)|
    ensures metadataOk && writeOk && !AnyPanicked(samples) ==> r.Success?
    ensures meminfo.Failure? && metadataOk && (writeOk || |log.records| > 0) ==> r.Success?
    ensures meminfo.Success? && AnyPanicked(samples) && metadataOk && (writeOk || |log.records| > 0) ==>
              r == Failure(Crashed)
    ensures metadataOk && !writeOk && (|log.records| == 0 || (meminfo.Success? && !AnyPanicked(samples))) ==>
              r == Failure(WriteError(WriteFailed))
  {
    var withHeader :- WriteHeaderIfEmpty(log, MemoryHeader(services), metadataOk, writeOk);
    match meminfo
    case Failure(_) => Success(withHeader)
    case Success(m) =>
      if AnyPanicked(samples) then Failure(Crashed)
      else Write(withHeader, MemoryRow(timestamp, m, samples), writeOk)
  }

  /** A cell reads back as the value it reports, and "N/A" marks exactly a failed sample. */
  ghost predicate ReportsSample(cell: string, sample: Result<real, SampleError>) {
    && (cell == NotAvailable <==> sample.Failure?)
    && (sample.Success? ==> ParseF64(cell) == Some(sample.value))
  }

  lemma SampleCellReports(sample: Result<real, SampleError>)
    requires sample.Success? ==> IsTenths(sample.value)
    ensures ReportsSample(SampleCell(sample), sample)
  {
    if sample.Success? {
      ParseShowTenths(sample.value);
      ShowTenthsIsNotPlaceholder(sample.value);
    }
  }

  /** Cell `k` reports sample `k`, for every sample. */
  ghost predicate ReportsSamples(cells: seq<string>, samples: seq<Result<real, SampleError>>) {
    && |cells| == |samples|
    && forall k | 0 <= k < |samples| :: ReportsSample(cells[k], samples[k])
  }

  lemma SampleCellsReport(samples: seq<Result<real, SampleError>>)
    requires forall k | 0 <= k < |samples| :: samples[k].Success? ==> IsTenths(samples[k].value)
    ensures ReportsSamples(SampleCells(samples), samples)
  {
    forall k | 0 <= k < |samples|
      ensures ReportsSample(SampleCells(samples)[k], samples[k])
    {
      SampleCellReports(samples[k]);
    }
  }

  /** The memory row lines up with the header column for column: same length, the timestamp
      first, the five host values under their columns (each reads back as its value), and
      under "<service>(MB)" the sample of that same service. */
  lemma MemoryRowMatchesHeader(timestamp: string, m: MemInfo, services: Option<seq<string>>,
                               samples: seq<Result<real, SampleError>>)
    requires |samples| == |Tracked(services)|
    requires m.total < U64Limit && m.free < U64Limit && m.available < U64Limit
    requires m.buffers < U64Limit && m.cached < U64Limit
    requires forall k | 0 <= k < |samples| :: samples[k].Success? ==> IsTenths(samples[k].value)
    ensures var header, row := MemoryHeader(services), MemoryRow(timestamp, m, samples);
            && |row| == |header| == 6 + |Tracked(services)|
            && header[0] == TimestampColumn && row[0] == timestamp
            && header[1..6] == MemoryColumns
            && ParseU64(row[1]) == Some(m.total) && ParseU64(row[2]) == Some(m.free)
            && ParseU64(row[3]) == Some(m.available) && ParseU64(row[4]) == Some(m.buffers)
            && ParseU64(row[5]) == Some(m.cached)
            && header[6..] == ServiceColumns(Tracked(services))
            && ReportsSamples(row[6..], samples)
  {
    MeminfoCellsReadBack(m);
    SampleCellsReport(samples);
    var cells := MeminfoCells(m);
    var row := [timestamp] + cells + SampleCells(samples);
    assert MemoryRow(timestamp, m, samples) == row;
    assert row[1..6] == cells;
    assert row[6..] == SampleCells(samples);
  }

  /** A tick keeps the memory log in shape: a log that is empty or starts with the header
      still starts with it, and the row the tick appends is as wide as the header, with
      under each service's column that service's sample or "N/A". */
  lemma MonitorMemoryKeepsLayout(log: LogWriter, metadataOk: bool, writeOk: bool, services: Option<seq<string>>,
                                 timestamp: string, meminfo: Result<MemInfo, SampleError>,
                                 samples: seq<Result<real, SampleError>>)
    requires |samples| == |Tracked(services)|
    requires |log.records| == 0 || log.records[0] == MemoryHeader(services)
    requires forall k | 0 <= k < |samples| :: samples[k].Success? ==> IsTenths(samples[k].value)
    ensures var r := MonitorMemory(log, metadataOk, writeOk, services, timestamp, meminfo, samples);
            r.Success? ==>
              && r.value.records[0] == MemoryHeader(services)
              && (meminfo.Success? ==>
                    var row := r.value.records[|r.value.records| - 1];
                    && |row| == |r.value.records[0]|
                    && row[0] == timestamp
                    && ReportsSamples(row[6..], samples))
  {
    var r := MonitorMemory(log, metadataOk, writeOk, services, timestamp, meminfo, samples);
    if r.Success? && meminfo.Success? {
      SampleCellsReport(samples);
      var row := MemoryRow(timestamp, meminfo.value, samples);
      assert row == [timestamp] + MeminfoCells(meminfo.value) + SampleCells(samples);
      assert row[6..] == SampleCells(samples);
    }
  }

  /** Each host memory cell reads back as its value. */
  lemma MeminfoCellsReadBack(m: MemInfo)
    requires m.total < U64Limit && m.free < U64Limit && m.available < U64Limit
    requires m.buffers < U64Limit && m.cached < U64Limit
    ensures var cells := MeminfoCells(m);
            && |cells| == 5
            && ParseU64(cells[0]) == Some(m.total) && ParseU64(cells[1]) == Some(m.free)
            && ParseU64(cells[2]) == Some(m.available) && ParseU64(cells[3]) == Some(m.buffers)
            && ParseU64(cells[4]) == Some(m.cached)
  {
    ParseShowU64(m.total);
    ParseShowU64(m.free);
    ParseShowU64(m.available);
    ParseShowU64(m.buffers);
    ParseShowU64(m.cached);
  }

  /** A failing sample changes only its own column: two sample lists that differ only at
      service `k` give rows that differ only at that service's column. */
  lemma MemoryRowIsolatesFailure(timestamp: string, m: MemInfo, a: seq<Result<real, SampleError>>,
                                 b: seq<Result<real, SampleError>>, k: nat)
    requires |a| == |b| && k < |a|
    requires forall j | 0 <= j < |a| && j != k :: a[j] == b[j]
    ensures var ra, rb := MemoryRow(timestamp, m, a), MemoryRow(timestamp, m, b);
            && |ra| == |rb|
            && forall i | 0 <= i < |ra| && i != 6 + k :: ra[i] == rb[i]
  {
  }

  /** Two ticks on a new, empty log write the header once, then one row per tick. */
  lemma MemoryHeaderWrittenOnce(log: LogWriter, services: Option<seq<string>>,
                                t1: string, m1: MemInfo, s1: seq<Result<real, SampleError>>,
                                t2: string, m2: MemInfo, s2: seq<Result<real, SampleError>>)
    requires |log.records| == 0
    requires |s1| == |Tracked(services)| && |s2| == |Tracked(services)|
    requires !AnyPanicked(s1) && !AnyPanicked(s2)
    ensures var first := MonitorMemory(log, true, true, services, t1, Success(m1), s1);
            && first.Success?
            && var second := MonitorMemory(first.value, true, true, services, t2, Success(m2), s2);
               && second.Success?
               && second.value.records
                  == [MemoryHeader(services), MemoryRow(t1, m1, s1), MemoryRow(t2, m2, s2)]
  {
  }

  // ---------------------------------------------------------------------------
  // CPU

  /** "Timestamp", then one "<service>(MB)" column per service: the memory suffix is reused
      for the CPU columns. */
  function CpuHeader(services: Option<seq<string>>): seq<string> {
    [TimestampColumn] + ServiceColumns(Tracked(services))
  }

  function CpuRow(timestamp: string, samples: seq<Result<real, SampleError>>): seq<string> {
    [timestamp] + SampleCells(samples)
  }

  /** `start_monitor_cpuload`: header if the file is empty, then a row only when a service
      list is configured. `samples[k]` is the outcome of `cmd_check_cpu_load` for the k-th
      service. */
  function MonitorCpuLoad(log: LogWriter, metadataOk: bool, writeOk: bool, services: Option<seq<string>>,
                          timestamp: string, samples: seq<Result<real, SampleError>>): (r: Result<LogWriter, TickError>)
    requires |samples| == |Tracked(services)|
    ensures !metadataOk ==> r == Failure(MetadataFailed)
    ensures r.Success? ==> r.value.path == log.path && log.records <= r.value.records
    ensures r.Success? ==>
              |r.value.records| == |log.records| + (if |log.records| == 0 then 1 else 0)
                                                  + (if services.Some? then 1 else 0)
    ensures r.Success? && |log.records| == 0 ==> r.value.records[0] == CpuHeader(services)
    ensures r.Success? && services.Some? ==>
              r.value.records[|r.value.records| - 1] == CpuRow(timestamp, samples)
    ensures r.Success? && services.Some? ==>
              |r.value.records[|r.value.records| - 1]| == |CpuHeader(services)|
    ensures metadataOk && writeOk && !AnyPanicked(samples) ==> r.Success?
    ensures services.None? && metadataOk && (writeOk || |log.records| > 0) ==> r.Success?
    ensures services.Some? && AnyPanicked(samples) && metadataOk && (writeOk || |log.records| > 0) ==>
              r == Failure(Crashed)
    ensures metadataOk && !writeOk && (|log.records| == 0 || (services.Some? && !AnyPanicked(samples))) ==>
              r == Failure(WriteError(WriteFailed))
  {
    var withHeader :- WriteHeaderIfEmpty(log, CpuHeader(services), metadataOk, writeOk);
    if services.None? then Success(withHeader)
    else if AnyPanicked(samples) then Failure(Crashed)
    else Write(withHeader, CpuRow(timestamp, samples), writeOk)
  }

  /** The CPU row lines up with the header: the timestamp, then under "<service>(MB)" the
      load of that same service, or "N/A". */
  lemma CpuRowMatchesHeader(timestamp: string, services: Option<seq<string>>, samples: seq<Result<real, SampleError>>)
    requires |samples| == |Tracked(services)|
    requires forall k | 0 <= k < |samples| :: samples[k].Success? ==> IsTenths(samples[k].value)
    ensures var header, row := CpuHeader(services), CpuRow(timestamp, samples);
            && |row| == |header| == 1 + |Tracked(services)|
            && header[0] == TimestampColumn && row[0] == timestamp
            && header[1..] == ServiceColumns(Tracked(services))
            && ReportsSamples(row[1..], samples)
  {
    SampleCellsReport(samples);
    var row := [timestamp] + SampleCells(samples);
    assert CpuRow(timestamp, samples) == row;
    assert row[1..] == SampleCells(samples);
  }

  /** A tick keeps the CPU log in shape: a log that is empty or starts with the header still
      starts with it, and a row the tick appends is as wide as the header, with under each
      service's column that service's load or "N/A". */
  lemma MonitorCpuLoadKeepsLayout(log: LogWriter, metadataOk: bool, writeOk: bool, services: Option<seq<string>>,
                                  timestamp: string, samples: seq<Result<real, SampleError>>)
    requires |samples| == |Tracked(services)|
    requires |log.records| == 0 || log.records[0] == CpuHeader(services)
    requires forall k | 0 <= k < |samples| :: samples[k].Success? ==> IsTenths(samples[k].value)
    ensures var r := MonitorCpuLoad(log, metadataOk, writeOk, services, timestamp, samples);
            r.Success? ==>
              && r.value.records[0] == CpuHeader(services)
              && (services.Some? ==>
                    var row := r.value.records[|r.value.records| - 1];
                    && |row| == |r.value.records[0]|
                    && row[0] == timestamp
                    && ReportsSamples(row[1..], samples))
  {
    var r := MonitorCpuLoad(log, metadataOk, writeOk, services, timestamp, samples);
    if r.Success? && services.Some? {
      SampleCellsReport(samples);
      var row := CpuRow(timestamp, samples);
      assert row == [timestamp] + SampleCells(samples);
      assert row[1..] == SampleCells(samples);
    }
  }

  /** A failing sample changes only its own column of the CPU row. */
  lemma CpuRowIsolatesFailure(timestamp: string, a: seq<Result<real, SampleError>>,
                              b: seq<Result<real, SampleError>>, k: nat)
    requires |a| == |b| && k < |a|
    requires forall j | 0 <= j < |a| && j != k :: a[j] == b[j]
    ensures var ra, rb := CpuRow(timestamp, a), CpuRow(timestamp, b);
            && |ra| == |rb|
            && forall i | 0 <= i < |ra| && i != 1 + k :: ra[i] == rb[i]
  {
  }

  /** Without a service list a tick writes at most the header, however often it runs. */
  lemma CpuWithoutServicesWritesOnlyHeader(log: LogWriter, t1: string, t2: string)
    requires |log.records| == 0
    ensures var first := MonitorCpuLoad(log, true, true, None, t1, []);
            && first.Success? && first.value.records == [CpuHeader(None)]
            && MonitorCpuLoad(first.value, true, true, None, t2, []) == first
  {
  }
}

=== FILE: journal_log.dfy ===
/** The journal tailing of log.rs and journal_log.rs: the `journalctl` command built from the
    watermark, the mapping of its outcome to a result, one iteration of the
    `spawn_*_log_writer` loops as a transition on the watermark, and the whitespace filter of
    `write_log`. The process run, the clock and the file are inputs. */
module JournalLog {
  import opened Wrappers
  import opened Numbers
  import opened Text
  import opened Os

  // ---------------------------------------------------------------------------
  // Time

  /** A `SystemTime` on Linux: seconds and nanoseconds since the epoch (the clock keeps the
      nanoseconds below 10^9; nothing here depends on that). */
  datatype Time = Time(secs: nat, nanos: nat)

  /** `a` is not later than `b`. */
  predicate AtMost(a: Time, b: Time) {
    a.secs < b.secs || (a.secs == b.secs && a.nanos <= b.nanos)
  }

  predicate NonDecreasing(ts: seq<Time>) {
    forall i, j | 0 <= i <= j < |ts| :: AtMost(ts[i], ts[j])
  }

  /** `format!("{:?}", t)`: the `Debug` text of a Linux `SystemTime`. */
  function Since(t: Time): string {
    "SystemTime { tv_sec: " + (ShowNat(t.secs) + NanosText(t.nanos))
  }

  function NanosText(n: nat): string {
    ", tv_nsec: " + ShowNat(n) + " }"
  }

  lemma DigitsThenComma(x: string, rx: string, y: string, ry: string)
    requires AllDigits(x) && AllDigits(y)
    requires x + rx == y + ry
    requires |rx| > 0 && rx[0] == ',' && |ry| > 0 && ry[0] == ','
    ensures x == y && rx == ry
  {
    var s := x + rx;
    assert s[|x|] == ',' && forall j | 0 <= j < |x| :: s[j] == x[j];
    assert s[|y|] == ',' && forall j | 0 <= j < |y| :: s[j] == y[j];
    assert IndexOf(s, ',') == |x|;
    assert IndexOf(s, ',') == |y|;
    assert x == s[..|x|];
    assert y == s[..|y|];
  }

  lemma NanosTextInjective(m: nat, n: nat)
    requires NanosText(m) == NanosText(n)
    ensures m == n
  {
    var a, b := NanosText(m), NanosText(n);
    assert ShowNat(m) == a[11..|a| - 2];
    assert ShowNat(n) == b[11..|b| - 2];
    ShowNatInjective(m, n);
  }

  /** Distinct watermarks give distinct `--since` arguments. */
  lemma SinceInjective(a: Time, b: Time)
    requires Since(a) == Since(b)
    ensures a == b
  {
    var prefix := "SystemTime { tv_sec: ";
    var ta, tb := ShowNat(a.secs) + NanosText(a.nanos), ShowNat(b.secs) + NanosText(b.nanos);
    assert ta == Since(a)[|prefix|..];
    assert tb == Since(b)[|prefix|..];
    DigitsThenComma(ShowNat(a.secs), NanosText(a.nanos), ShowNat(b.secs), NanosText(b.nanos));
    ShowNatInjective(a.secs, b.secs);
    NanosTextInjective(a.nanos, b.nanos);
  }

  /** How a loop prints its watermark for `--since`. The code passes the `Debug` text of the
      `SystemTime`; `EpochSeconds` is "@" and the whole seconds since the epoch, one of the
      forms systemd.time(7) documents. */
  datatype SinceFormat = DebugText | EpochSeconds

  function SinceText(f: SinceFormat, t: Time): string {
    match f
    case DebugText => Since(t)
    case EpochSeconds => "@" + ShowNat(t.secs)
  }

  /** The two leading letters, lower-cased, of the words a systemd timestamp may begin with:
      a weekday name ("Mon" … "Sun", in short or long form) or one of "now", "today",
      "yesterday", "tomorrow" and "epoch". */
  const LeadingWords: set<string> := {"mo", "tu", "we", "th", "fr", "sa", "su", "no", "to", "ye", "ep"}

  function Lower(c: char): char {
    if 'A' <= c <= 'Z' then (c as int + 32) as char else c
  }

  /** A necessary condition for journalctl to read `s` as a time (systemd.time(7)): every
      form begins with a digit (a date, or a relative "5min ago"), '@' (epoch seconds), '+' or
      '-' (an offset from now), a blank, or one of the leading words. */
  predicate MayBeTimestamp(s: string) {
    && |s| > 0
    && (|| IsDigit(s[0]) || s[0] in {'@', '+', '-', ' '}
        || (|s| >= 2 && [Lower(s[0]), Lower(s[1])] in LeadingWords))
  }

  /** "@" and one or more digits: epoch seconds, a form journalctl accepts. */
  predicate EpochForm(s: string) {
    |s| >= 2 && s[0] == '@' && AllDigits(s[1..])
  }

  /** The `Debug` text of a `SystemTime` is no timestamp journalctl can read: it begins
      with "Sy". */
  lemma DebugTextRefused(t: Time)
    ensures !MayBeTimestamp(SinceText(DebugText, t))
  {
    var s := SinceText(DebugText, t);
    assert s[0] == 'S' && s[1] == 'y';
    assert [Lower(s[0]), Lower(s[1])] == "sy";
  }

  /** Epoch seconds always print in the form journalctl accepts. */
  lemma EpochSecondsAccepted(t: Time)
    ensures EpochForm(SinceText(EpochSeconds, t))
    ensures MayBeTimestamp(SinceText(EpochSeconds, t))
  {
    var s := SinceText(EpochSeconds, t);
    assert s[1..] == ShowNat(t.secs);
  }

  // ---------------------------------------------------------------------------
  // The journalctl command

  /** Which journal a tailing loop follows. */
  datatype Stream = ServiceStream(service: string) | KernelStream

  datatype Command = Command(program: string, args: seq<string>)

  /** `extract_service_logs` / `extract_kernel_logs`: the command line they run. */
  function FetchCommand(stream: Stream, since: string): Command {
    match stream
    case ServiceStream(service) => Command("journalctl", ["-u", service, "--since", since, "--no-pager"])
    case KernelStream => Command("journalctl", ["-k", "--since", since, "--no-pager"])
  }

  /** What a journalctl command line asks for: the unit, the kernel ring, the start time and
      whether a pager is used. */
  datatype Query = Query(unit: Option<string>, kernel: bool, since: Option<string>, pager: bool)

  const DefaultQuery := Query(None, false, None, true)

  /** How journalctl reads the four options these commands use; `None` for anything else. */
  function ParseArgs(args: seq<string>, q: Query): Option<Query>
    decreases |args|
  {
    if |args| == 0 then Some(q)
    else if args[0] == "-u" && |args| > 1 then ParseArgs(args[2..], q.(unit := Some(args[1])))
    else if args[0] == "--since" && |args| > 1 then ParseArgs(args[2..], q.(since := Some(args[1])))
    else if args[0] == "-k" then ParseArgs(args[1..], q.(kernel := true))
    else if args[0] == "--no-pager" then ParseArgs(args[1..], q.(pager := false))
    else None
  }

  /** The command asks journalctl for the followed journal's entries since `since`, without a
      pager — whatever text the service name or `since` holds. */
  lemma FetchCommandAsksForStream(stream: Stream, since: string)
    ensures var cmd := FetchCommand(stream, since);
            && cmd.program == "journalctl"
            && ParseArgs(cmd.args, DefaultQuery)
               == Some(match stream
                       case ServiceStream(s) => Query(Some(s), false, Some(since), false)
                       case KernelStream => Query(None, true, Some(since), false))
  {
    var args := FetchCommand(stream, since).args;
    match stream
    case ServiceStream(s) =>
      var q := DefaultQuery.(unit := Some(s));
      assert args[2..] == ["--since", since, "--no-pager"];
      assert ParseArgs(args, DefaultQuery) == ParseArgs(args[2..], q);
      assert args[2..][2..] == ["--no-pager"];
      assert ParseArgs(args[2..], q) == ParseArgs(["--no-pager"], q.(since := Some(since)));
      assert ["--no-pager"][1..] == [];
    case KernelStream =>
      var q := DefaultQuery.(kernel := true);
      assert args[1..] == ["--since", since, "--no-pager"];
      assert ParseArgs(args, DefaultQuery) == ParseArgs(args[1..], q);
      assert args[1..][2..] == ["--no-pager"];
      assert ParseArgs(args[1..], q) == ParseArgs(["--no-pager"], q.(since := Some(since)));
      assert ["--no-pager"][1..] == [];
  }

  /** Different watermarks make different commands: the request names the watermark. */
  lemma FetchCommandNamesWatermark(stream: Stream, a: Time, b: Time)
    requires FetchCommand(stream, Since(a)) == FetchCommand(stream, Since(b))
    ensures a == b
  {
    var i := if stream.KernelStream? then 2 else 3;
    assert Since(a) == FetchCommand(stream, Since(a)).args[i];
    assert Since(b) == FetchCommand(stream, Since(b)).args[i];
    SinceInjective(a, b);
  }

  datatype FetchError =
    | SpawnFailed           // `output()?`: journalctl could not be run
    | Failed(stderr: string) // a non-success exit, carrying what journalctl printed on stderr

  /** The result mapping of `extract_*_logs`. */
  function Extract(e: Exec): (r: Result<string, FetchError>)
    ensures r.Success? <==> e.Exited? && e.success
    ensures r == Failure(SpawnFailed) <==> e.NotStarted?
    ensures e.Exited? && !e.success ==> r == Failure(Failed(e.stderr))
    ensures r.Success? ==> r.value == e.stdout
  {
    match e
    case NotStarted => Failure(SpawnFailed)
    case Exited(success, stdout, stderr) => if success then Success(stdout) else Failure(Failed(stderr))
  }

  // ---------------------------------------------------------------------------
  // The tailing loop

  /** After one iteration: the new watermark, and the text logged or the error reported. */
  datatype StepResult = StepResult(watermark: Time, fetched: Result<string, FetchError>)

  /** One iteration of `spawn_service_log_writer` / `spawn_kernel_log_writer`: fetch since the
      watermark, printed in format `f` (`DebugText` in the code), then on success move the
      watermark to `clock`, the time read after the fetch returned; on failure keep it. `run`
      gives the outcome of running a command now. */
  function Step(stream: Stream, f: SinceFormat, w: Time, run: Command -> Exec, clock: Time): (r: StepResult)
    ensures r.fetched == Extract(run(FetchCommand(stream, SinceText(f, w))))
    ensures r.fetched.Success? ==> r.watermark == clock
    ensures r.fetched.Failure? ==> r.watermark == w
  {
    var fetched := Extract(run(FetchCommand(stream, SinceText(f, w))));
    match fetched
    case Success(_) => StepResult(clock, fetched)
    case Failure(_) => StepResult(w, fetched)
  }

  /** A successful fetch moves the watermark even when it returned no text at all, so entries
      written between the fetch and the clock reading are never asked for. */
  lemma StepAdvancesOnEmptyOutput(stream: Stream, f: SinceFormat, w: Time, run: Command -> Exec, clock: Time,
                                   stderr: string)
    requires run(FetchCommand(stream, SinceText(f, w))) == Exited(true, "", stderr)
    ensures Step(stream, f, w, run, clock) == StepResult(clock, Success(""))
  {
  }

  /** A failed fetch, whatever the failure, leaves the watermark where it was. */
  lemma StepKeepsWatermarkOnError(stream: Stream, f: SinceFormat, w: Time, run: Command -> Exec, clock: Time)
    requires !run(FetchCommand(stream, SinceText(f, w))).Exited? || !run(FetchCommand(stream, SinceText(f, w))).success
    ensures Step(stream, f, w, run, clock).watermark == w
    ensures Step(stream, f, w, run, clock).fetched.Failure?
  {
  }

  /** The iteration asks about one command only: the fetch since the current watermark. */
  lemma StepDependsOnlyOnItsFetch(stream: Stream, f: SinceFormat, w: Time, run1: Command -> Exec,
                                   run2: Command -> Exec, clock: Time)
    requires run1(FetchCommand(stream, SinceText(f, w))) == run2(FetchCommand(stream, SinceText(f, w)))
    ensures Step(stream, f, w, run1, clock) == Step(stream, f, w, run2, clock)
  {
  }

  /** The watermarks after each of a run of iterations; iteration `i` sees the process
      outcomes `runs[i]` and reads the clock `clocks[i]`. */
  function Run(stream: Stream, f: SinceFormat, w: Time, runs: seq<Command -> Exec>, clocks: seq<Time>): (ws: seq<Time>)
    requires |runs| == |clocks|
    ensures |ws| == |runs|
    decreases |runs|
  {
    if |runs| == 0 then []
    else
      var next := Step(stream, f, w, runs[0], clocks[0]).watermark;
      [next] + Run(stream, f, next, runs[1..], clocks[1..])
  }

  lemma NonDecreasingTail(ts: seq<Time>)
    requires |ts| > 0 && NonDecreasing(ts)
    ensures NonDecreasing(ts[1..])
  {
    forall i, j | 0 <= i <= j < |ts| - 1
      ensures AtMost(ts[1..][i], ts[1..][j])
    {
      assert ts[1..][i] == ts[i + 1] && ts[1..][j] == ts[j + 1];
    }
  }

  lemma NonDecreasingCons(t: Time, ts: seq<Time>)
    requires NonDecreasing(ts) && (|ts| > 0 ==> AtMost(t, ts[0]))
    ensures NonDecreasing([t] + ts)
  {
    var all := [t] + ts;
    forall i, j | 0 <= i <= j < |all|
      ensures AtMost(all[i], all[j])
    {
      if i > 0 {
        assert all[i] == ts[i - 1] && all[j] == ts[j - 1];
      } else if j > 0 {
        assert all[j] == ts[j - 1];
        assert AtMost(ts[0], ts[j - 1]);
      }
    }
  }

  /** With a clock that never goes back, started no later than the first reading, the
      watermark never decreases and never passes the clock. */
  lemma {:induction false} RunNeverDecreases(stream: Stream, f: SinceFormat, w: Time, runs: seq<Command -> Exec>,
                                             clocks: seq<Time>)
    requires |runs| == |clocks|
    requires NonDecreasing(clocks)
    requires |clocks| > 0 ==> AtMost(w, clocks[0])
    ensures var ws := Run(stream, f, w, runs, clocks);
            && (|ws| > 0 ==> AtMost(w, ws[0]))
            && NonDecreasing(ws)
            && forall i | 0 <= i < |ws| :: AtMost(ws[i], clocks[i])
    decreases |runs|
  {
    if |runs| > 0 {
      var next := Step(stream, f, w, runs[0], clocks[0]).watermark;
      var rest := Run(stream, f, next, runs[1..], clocks[1..]);
      var ws := Run(stream, f, w, runs, clocks);
      assert ws == [next] + rest;
      assert AtMost(next, clocks[0]);
      NonDecreasingTail(clocks);
      if |runs| > 1 {
        assert AtMost(clocks[0], clocks[1]);
      }
      RunNeverDecreases(stream, f, next, runs[1..], clocks[1..]);
      NonDecreasingCons(next, rest);
      forall i | 1 <= i < |ws|
        ensures AtMost(ws[i], clocks[i])
      {
        assert ws[i] == rest[i - 1] && clocks[i] == clocks[1..][i - 1];
      }
    }
  }

  /** journalctl as systemd.time(7) describes it: it exits with an error on a `--since`
      text that cannot be a timestamp. */
  ghost predicate RefusesNonTimestamps(stream: Stream, run: Command -> Exec) {
    forall s | !MayBeTimestamp(s) ::
      !run(FetchCommand(stream, s)).Exited? || !run(FetchCommand(stream, s)).success
  }

  /** A journalctl that reads epoch seconds and has nothing else to fail on. */
  ghost predicate AcceptsEpochSeconds(stream: Stream, run: Command -> Exec) {
    forall s | EpochForm(s) :: run(FetchCommand(stream, s)).Exited? && run(FetchCommand(stream, s)).success
  }

  /** The code as written: when journalctl refuses a `--since` text that cannot be a
      timestamp, every fetch since the `Debug` text fails and the watermark never leaves its
      start, whatever the clock does. */
  lemma {:induction false} RunStuckOnDebugText(stream: Stream, w: Time, runs: seq<Command -> Exec>, clocks: seq<Time>)
    requires |runs| == |clocks|
    requires forall i | 0 <= i < |runs| :: RefusesNonTimestamps(stream, runs[i])
    ensures forall i | 0 <= i < |runs| :: Run(stream, DebugText, w, runs, clocks)[i] == w
    decreases |runs|
  {
    if |runs| > 0 {
      DebugTextRefused(w);
      var text := SinceText(DebugText, w);
      assert !MayBeTimestamp(text);
      assert RefusesNonTimestamps(stream, runs[0]);
      StepKeepsWatermarkOnError(stream, DebugText, w, runs[0], clocks[0]);
      var ws := Run(stream, DebugText, w, runs, clocks);
      var rest := Run(stream, DebugText, w, runs[1..], clocks[1..]);
      assert ws == [w] + rest;
      assert forall i | 0 <= i < |runs| - 1 :: RefusesNonTimestamps(stream, runs[1..][i]);
      RunStuckOnDebugText(stream, w, runs[1..], clocks[1..]);
      forall i | 0 <= i < |runs|
        ensures ws[i] == w
      {
        if i > 0 {
          assert ws[i] == rest[i - 1];
        }
      }
    }
  }

  /** The corrected loop: with `--since` in epoch seconds and a journalctl that reads them,
      every fetch succeeds and each watermark is the clock reading of its iteration. */
  lemma {:induction false} RunFollowsClockWithEpochSeconds(stream: Stream, w: Time, runs: seq<Command -> Exec>,
                                                           clocks: seq<Time>)
    requires |runs| == |clocks|
    requires forall i | 0 <= i < |runs| :: AcceptsEpochSeconds(stream, runs[i])
    ensures Run(stream, EpochSeconds, w, runs, clocks) == clocks
    decreases |runs|
  {
    if |runs| > 0 {
      EpochSecondsAccepted(w);
      var text := SinceText(EpochSeconds, w);
      assert EpochForm(text);
      assert AcceptsEpochSeconds(stream, runs[0]);
      assert Step(stream, EpochSeconds, w, runs[0], clocks[0]).watermark == clocks[0];
      assert forall i | 0 <= i < |runs| - 1 :: AcceptsEpochSeconds(stream, runs[1..][i]);
      RunFollowsClockWithEpochSeconds(stream, clocks[0], runs[1..], clocks[1..]);
      assert [clocks[0]] + clocks[1..] == clocks;
    }
  }

  // ---------------------------------------------------------------------------
  // write_log

  datatype WriteLogError = OpenError | WriteError

  /** `write_log` of journal_log.rs: open (creating if needed) in append mode, then write the
      text and one newline unless it trims to nothing. `existing` is the file's contents, or
      `None` when it does not exist yet; `openOk` and `writeOk` are the outcomes of the open
      and of the write. The result is the file's contents afterwards. */
  function WriteLog(existing: Option<string>, openOk: bool, writeOk: bool, logs: string): (r: Result<string, WriteLogError>)
    ensures !openOk ==> r == Failure(OpenError)
    ensures openOk && IsBlank(logs) ==> r == Success(existing.GetOr(""))
    ensures openOk && !IsBlank(logs) ==> (r.Success? <==> writeOk)
    ensures r.Success? && !IsBlank(logs) ==> r.value == existing.GetOr("") + logs + "\n"
  {
    TrimEmptyIffBlank(logs);
    if !openOk then Failure(OpenError)
    else
      var contents := existing.GetOr("");
      if |Trim(logs)| == 0 then Success(contents)
      else if !writeOk then Failure(WriteError)
      else Success(contents + logs + "\n")
  }

  /** Output made only of line breaks and blanks leaves an existing file unchanged, and
      leaves a missing one created but empty, whatever the write would have done. */
  lemma WriteLogDropsBlankOutput(existing: Option<string>, writeOk: bool, logs: string)
    requires IsBlank(logs)
    ensures WriteLog(existing, true, writeOk, logs) == Success(existing.GetOr(""))
    ensures WriteLog(existing, true, writeOk, logs) == WriteLog(existing, true, !writeOk, logs)
  {
    TrimEmptyIffBlank(logs);
  }

  /** A written text always ends the file with a line break, and what was there before is
      kept as a prefix. */
  lemma WriteLogAppends(existing: string, logs: string)
    requires !IsBlank(logs)
    ensures var r := WriteLog(Some(existing), true, true, logs);
            && r.Success?
            && existing <= r.value
            && r.value[|existing|..] == logs + "\n"
            && r.value[|r.value| - 1] == '\n'
  {
  }
}

=== FILE: numbers.dfy ===
/** Decimal numbers as Rust reads and prints them: `u64`/`u32` `from_str`, `f64` `from_str`,
    `u64::to_string` and the `Display` of a float truncated to one decimal. */
module Numbers {
  import opened Wrappers
  import Text

  const U32Limit: nat := 0x1_0000_0000
  const U64Limit: nat := 0x1_0000_0000_0000_0000

  predicate IsDigit(c: char) {
    '0' <= c <= '9'
  }

  predicate AllDigits(s: string) {
    forall i | 0 <= i < |s| :: IsDigit(s[i])
  }

  function DigitValue(c: char): (d: nat)
    requires IsDigit(c)
    ensures d < 10
  {
    (c as int) - ('0' as int)
  }

  function DigitChar(d: nat): (c: char)
    requires d < 10
    ensures IsDigit(c) && DigitValue(c) == d
  {
    (('0' as int) + d) as char
  }

  /** The number a string of decimal digits denotes (most significant first). */
  function DigitsValue(s: string): nat
    requires AllDigits(s)
    decreases |s|
  {
    if |s| == 0 then 0 else DigitsValue(s[..|s| - 1]) * 10 + DigitValue(s[|s| - 1])
  }

  function Pow10(n: nat): (p: nat)
    ensures p >= 1
  {
    if n == 0 then 1 else 10 * Pow10(n - 1)
  }

  /** Rust's `from_str` for an unsigned integer type whose values lie below `limit`:
      one optional leading '+', then at least one ASCII digit and nothing else; a value
      that does not fit is an error. */
  function ParseUnsigned(s: string, limit: nat): (r: Option<nat>)
    ensures r.Some? ==> r.value < limit
    ensures r.Some? ==> |s| > 0 && (IsDigit(s[0]) || s[0] == '+')
    ensures AllDigits(s) && |s| > 0 && DigitsValue(s) < limit ==> r == Some(DigitsValue(s))
  {
    var digits := if |s| > 1 && s[0] == '+' then s[1..] else s;
    if |digits| > 0 && AllDigits(digits) && DigitsValue(digits) < limit then
      Some(DigitsValue(digits))
    else
      None
  }

  /** `str::parse::<u64>`. */
  function ParseU64(s: string): Option<nat> {
    ParseUnsigned(s, U64Limit)
  }

  /** `str::parse::<u32>`. */
  function ParseU32(s: string): Option<nat> {
    ParseUnsigned(s, U32Limit)
  }

  /** `to_string` of an unsigned integer: decimal digits, no leading zero. */
  function ShowNat(n: nat): (s: string)
    ensures |s| > 0 && AllDigits(s)
    ensures DigitsValue(s) == n
    ensures |s| > 1 ==> s[0] != '0'
    decreases n
  {
    if n < 10 then [DigitChar(n)]
    else
      var s := ShowNat(n / 10) + [DigitChar(n % 10)];
      assert s[..|s| - 1] == ShowNat(n / 10);
      s
  }

  /** Round trip: an unsigned integer printed by `to_string` parses back to itself. */
  lemma ParseShowU64(n: nat)
    requires n < U64Limit
    ensures ParseU64(ShowNat(n)) == Some(n)
  {
  }

  /** A printed number is one whitespace-free token. */
  lemma ShowNatIsWord(n: nat)
    ensures Text.IsWord(ShowNat(n))
  {
    var s := ShowNat(n);
    assert forall i | 0 <= i < |s| :: IsDigit(s[i]);
  }

  /** Distinct numbers print differently. */
  lemma ShowNatInjective(m: nat, n: nat)
    requires ShowNat(m) == ShowNat(n)
    ensures m == n
  {
  }

  // ---------------------------------------------------------------------------
  // Floats

  /** The value of the digit strings `intPart` "." `fracPart`. */
  function DecimalValue(intPart: string, fracPart: string): real
    requires AllDigits(intPart) && AllDigits(fracPart)
  {
    DigitsValue(intPart) as real + DigitsValue(fracPart) as real / Pow10(|fracPart|) as real
  }

  /** An unsigned decimal: digits, optionally "." and more digits, at least one digit in all. */
  function ParseUnsignedDecimal(s: string): (r: Option<real>)
    ensures r.Some? ==> r.value >= 0.0
  {
    var dot := Text.IndexOf(s, '.');
    var intPart := s[..dot];
    var fracPart := if dot < |s| then s[dot + 1..] else [];
    if AllDigits(intPart) && AllDigits(fracPart) && |intPart| + |fracPart| > 0 then
      Some(DecimalValue(intPart, fracPart))
    else
      None
  }

  /** `str::parse::<f64>` on plain decimal text: an optional sign, then an unsigned decimal. */
  function ParseF64(s: string): (r: Option<real>)
    ensures |s| > 0 && s[0] == '-' && r.Some? ==> r.value <= 0.0
    ensures |s| > 0 && s[0] != '-' && r.Some? ==> r.value >= 0.0
  {
    if |s| > 0 && (s[0] == '+' || s[0] == '-') then
      match ParseUnsignedDecimal(s[1..])
      case None => None
      case Some(v) => Some(if s[0] == '-' then -v else v)
    else
      ParseUnsignedDecimal(s)
  }

  /** Rounding toward zero, `f64::trunc`. */
  function TruncTowardZero(x: real): (n: int)
    ensures x >= 0.0 ==> n as real <= x < n as real + 1.0
    ensures x < 0.0 ==> n as real - 1.0 < x <= n as real
  {
    if x >= 0.0 then x.Floor else -((-x).Floor)
  }

  /** A whole number of tenths. */
  predicate IsTenths(x: real) {
    (x * 10.0).Floor as real == x * 10.0
  }

  /** `Display` of a float that is a whole number of tenths: "12", "12.3", "-0.5". */
  function ShowTenths(x: real): (s: string)
    ensures |s| > 0
    ensures IsDigit(s[0]) || s[0] == '-'
  {
    var k := (x * 10.0).Floor;
    (if k < 0 then "-" else "") + TenthsText(if k < 0 then -k else k)
  }

  /** `a` tenths without a sign: the whole part, then "." and the tenth unless it is 0. */
  function TenthsText(a: nat): (s: string)
    ensures |s| > 0 && IsDigit(s[0])
  {
    ShowNat(a / 10) + (if a % 10 == 0 then "" else "." + [DigitChar(a % 10)])
  }

  lemma TenthsSplit(a: nat)
    ensures (a / 10) as real + (a % 10) as real / 10.0 == a as real / 10.0
  {
    var q, m := a / 10, a % 10;
    assert a == 10 * q + m;
    assert a as real == 10.0 * q as real + m as real;
  }

  lemma DigitsHaveNoDot(s: string)
    requires AllDigits(s)
    ensures Text.IndexOf(s, '.') == |s|
  {
  }

  lemma DotAfterDigits(whole: string, frac: string)
    requires AllDigits(whole)
    ensures Text.IndexOf(whole + "." + frac, '.') == |whole|
  {
    var s := whole + "." + frac;
    assert s[|whole|] == '.';
    assert forall j | 0 <= j < |whole| :: s[j] == whole[j];
  }

  lemma SingleDigitValue(d: nat)
    requires d < 10
    ensures AllDigits([DigitChar(d)]) && DigitsValue([DigitChar(d)]) == d
  {
    assert [DigitChar(d)][..0] == [];
  }

  /** The digits of a whole number read back as that number. */
  lemma ParseWhole(n: nat)
    ensures ParseUnsignedDecimal(ShowNat(n)) == Some(n as real)
  {
    var whole := ShowNat(n);
    DigitsHaveNoDot(whole);
    assert whole[..|whole|] == whole;
    assert DecimalValue(whole, []) == n as real;
  }

  /** The digits of a whole number, a dot and any digits after it, as `/proc/uptime`
      prints its seconds. */
  lemma ParseWholeDotDigits(n: nat, frac: string)
    requires AllDigits(frac)
    ensures ParseUnsignedDecimal(ShowNat(n) + "." + frac)
            == Some(n as real + DigitsValue(frac) as real / Pow10(|frac|) as real)
  {
    var whole := ShowNat(n);
    var s := whole + "." + frac;
    DotAfterDigits(whole, frac);
    var dot := |whole|;
    assert dot < |s|;
    assert s[..dot] == whole;
    assert s[dot + 1..] == frac;
    assert DigitsValue(whole) == n;
    assert DecimalValue(whole, frac) == n as real + DigitsValue(frac) as real / Pow10(|frac|) as real;
  }

  lemma UnsignedTenthsRoundTrip(a: nat)
    ensures ParseUnsignedDecimal(TenthsText(a)) == Some(a as real / 10.0)
  {
    TenthsSplit(a);
    var whole := ShowNat(a / 10);
    var frac := if a % 10 == 0 then "" else "." + [DigitChar(a % 10)];
    assert TenthsText(a) == whole + frac;
    if a % 10 == 0 {
      assert whole + frac == whole;
      ParseWhole(a / 10);
    } else {
      assert whole + frac == whole + "." + [DigitChar(a % 10)];
      OneFractionDigit(a / 10, a % 10);
    }
  }

  /** The one-digit case of `ParseWholeDotDigits`, as a one-decimal value is printed. */
  lemma OneFractionDigit(n: nat, d: nat)
    requires d < 10
    ensures ParseUnsignedDecimal(ShowNat(n) + "." + [DigitChar(d)]) == Some(n as real + d as real / 10.0)
  {
    var ds := [DigitChar(d)];
    SingleDigitValue(d);
    ParseWholeDotDigits(n, ds);
    assert Pow10(|ds|) == 10 by { assert Pow10(0) == 1; }
    assert DigitsValue(ds) as real / Pow10(|ds|) as real == d as real / 10.0;
  }

  /** `ShowTenths` prints the sign, then the magnitude `a` counted in tenths. */
  lemma ShowTenthsShape(x: real) returns (a: nat, negative: bool)
    requires IsTenths(x)
    ensures ShowTenths(x) == (if negative then "-" else "") + TenthsText(a)
    ensures x == (if negative then -(a as real / 10.0) else a as real / 10.0)
  {
    var k := (x * 10.0).Floor;
    assert k as real == x * 10.0;
    assert x == k as real / 10.0;
    if k < 0 {
      negative, a := true, -k;
      assert a as real == -(k as real);
    } else {
      negative, a := false, k;
    }
    assert ShowTenths(x) == (if negative then "-" else "") + TenthsText(a);
  }

  lemma ParseNegative(rest: string, v: real)
    requires ParseUnsignedDecimal(rest) == Some(v)
    ensures ParseF64("-" + rest) == Some(-v)
  {
    assert ("-" + rest)[1..] == rest;
  }

  lemma ParsePositive(rest: string)
    requires |rest| > 0 && IsDigit(rest[0])
    ensures ParseF64(rest) == ParseUnsignedDecimal(rest)
  {
  }

  /** Round trip: the text of a one-decimal value parses back to that value. */
  lemma ParseShowTenths(x: real)
    requires IsTenths(x)
    ensures ParseF64(ShowTenths(x)) == Some(x)
  {
    var a, negative := ShowTenthsShape(x);
    UnsignedTenthsRoundTrip(a);
    if negative {
      ParseNegative(TenthsText(a), a as real / 10.0);
    } else {
      assert ShowTenths(x) == TenthsText(a);
      ParsePositive(TenthsText(a));
    }
  }

  /** A printed number is never the "N/A" placeholder of the CSV rows. */
  lemma ShowTenthsIsNotPlaceholder(x: real)
    ensures ShowTenths(x) != "N/A"
  {
  }
}

=== FILE: proc_parsers.dfy ===
/** The text parsers of `CmdHealCheck`: `/proc/meminfo`, `/proc/<pid>/stat`, `/proc/uptime`,
    `/proc/<pid>/status` (VmRSS), the `pgrep` pid list and the `df` output. Every file read and
    every command result is an input. */
module ProcParsers {
  import opened Wrappers
  import opened Text
  import opened Numbers
  import opened Os

  /** Why a sample could not be taken. The source reports each as a `String`. */
  datatype SampleError =
    | SpawnFailed                       // the command could not be started
    | CommandFailed(stderr: string)     // "Failed to execute command: <stderr>"
    | ServiceNotFound(service: string)  // "Service <service> not found"
    | ReadFailed                        // a /proc file could not be read
    | ParseFailed                       // a field is not a number
    | FieldMissing                      // a "VmRSS:" line without a value
    | Malformed                         // "Failed to parse command output: ..."
    | Panicked                          // the source panics instead of returning an error

  /** Host memory in MB, as `parse_meminfo` reports it. */
  datatype MemInfo = MemInfo(total: nat, free: nat, available: nat, buffers: nat, cached: nat)

  const MemTotalKey := "MemTotal:"
  const MemFreeKey := "MemFree:"
  const MemAvailableKey := "MemAvailable:"
  const BuffersKey := "Buffers:"
  const CachedKey := "Cached:"

  // ---------------------------------------------------------------------------
  // /proc/meminfo

  /** One meminfo line's value in MB: the second token as a `u64` of kB, integer-divided by
      1024; a missing or non-numeric token counts as 0 kB. */
  function MeminfoValue(line: string): (mb: nat)
    ensures var tokens := SplitWhitespace(line);
            if |tokens| > 1 && ParseU64(tokens[1]).Some?
            then mb * 1024 <= ParseU64(tokens[1]).value < mb * 1024 + 1024
            else mb == 0
  {
    var tokens := SplitWhitespace(line);
    var field := if |tokens| > 1 then tokens[1] else "0";
    ParseU64(field).GetOr(0) / 1024
  }

  /** A `/proc/meminfo` line as the kernel prints it: key, padding, value, " kB". */
  function MeminfoLine(key: string, pad: string, kb: nat): string {
    key + pad + ShowNat(kb) + " kB"
  }

  /** Reading a printed meminfo line gives back its value, converted to MB. */
  lemma MeminfoValueOfLine(key: string, pad: string, kb: nat)
    requires IsWord(key) && |pad| > 0 && IsBlank(pad)
    requires kb < U64Limit
    ensures MeminfoValue(MeminfoLine(key, pad, kb)) == kb / 1024
  {
    var line := MeminfoLine(key, pad, kb);
    assert line == key + pad + (ShowNat(kb) + " " + "kB");
    SplitWordThenBlank(key, pad, ShowNat(kb) + " " + "kB");
    SplitWordThenBlank(ShowNat(kb), " ", "kB");
    SplitSingleWord("kB");
    assert SplitWhitespace(line)[1] == ShowNat(kb);
  }

  /** The fields a meminfo line sets, in the order of the source's `else if` chain. */
  function Absorb(m: MemInfo, line: string): MemInfo {
    if StartsWith(line, MemTotalKey) then m.(total := MeminfoValue(line))
    else if StartsWith(line, MemFreeKey) then m.(free := MeminfoValue(line))
    else if StartsWith(line, MemAvailableKey) then m.(available := MeminfoValue(line))
    else if StartsWith(line, BuffersKey) then m.(buffers := MeminfoValue(line))
    else if StartsWith(line, CachedKey) then m.(cached := MeminfoValue(line))
    else m
  }

  /** The loop of `parse_meminfo` over the lines read so far. */
  function Scan(lines: seq<string>): MemInfo
    decreases |lines|
  {
    if |lines| == 0 then MemInfo(0, 0, 0, 0, 0)
    else Absorb(Scan(lines[..|lines| - 1]), lines[|lines| - 1])
  }

  /** Line `i` is the last line starting with `key`. */
  predicate IsLastMatch(lines: seq<string>, key: string, i: int) {
    && 0 <= i < |lines|
    && StartsWith(lines[i], key)
    && forall j | i < j < |lines| :: !StartsWith(lines[j], key)
  }

  /** `v` is the value of the last line starting with `key`, or 0 when no line does. */
  ghost predicate FromLastMatch(lines: seq<string>, key: string, v: nat) {
    && ((forall i | 0 <= i < |lines| :: !StartsWith(lines[i], key)) ==> v == 0)
    && (forall i | IsLastMatch(lines, key, i) :: v == MeminfoValue(lines[i]))
  }

  /** `parse_meminfo`: `None` is a `/proc/meminfo` that could not be opened or read. */
  function ParseMeminfo(contents: Option<string>): (r: Result<MemInfo, SampleError>)
    ensures contents.None? <==> r.Failure?
    ensures r.Failure? ==> r.error == ReadFailed
    ensures r.Success? ==>
              var lines := Lines(contents.value);
              && FromLastMatch(lines, MemTotalKey, r.value.total)
              && FromLastMatch(lines, MemFreeKey, r.value.free)
              && FromLastMatch(lines, MemAvailableKey, r.value.available)
              && FromLastMatch(lines, BuffersKey, r.value.buffers)
              && FromLastMatch(lines, CachedKey, r.value.cached)
  {
    match contents
    case None => Failure(ReadFailed)
    case Some(text) =>
      ScanTakesLastMatch(Lines(text));
      Success(Scan(Lines(text)))
  }

  /** No line starts with two of the five keys: each branch of the `else if` chain is reached
      only by lines that no other branch would take. */
  lemma KeysExclusive(line: string)
    ensures StartsWith(line, MemTotalKey) ==> !StartsWith(line, MemFreeKey) && !StartsWith(line, MemAvailableKey)
                                               && !StartsWith(line, BuffersKey) && !StartsWith(line, CachedKey)
    ensures StartsWith(line, MemFreeKey) ==> !StartsWith(line, MemAvailableKey)
                                              && !StartsWith(line, BuffersKey) && !StartsWith(line, CachedKey)
    ensures StartsWith(line, MemAvailableKey) ==> !StartsWith(line, BuffersKey) && !StartsWith(line, CachedKey)
    ensures StartsWith(line, BuffersKey) ==> !StartsWith(line, CachedKey)
  {
    if StartsWith(line, MemTotalKey) {
      assert line[3] == MemTotalKey[3];
    }
    if StartsWith(line, MemFreeKey) {
      assert line[3] == MemFreeKey[3];
    }
    if StartsWith(line, MemAvailableKey) {
      assert line[0] == MemAvailableKey[0];
    }
    if StartsWith(line, BuffersKey) {
      assert line[0] == BuffersKey[0];
    }
  }

  lemma ExtendNonMatching(lines: seq<string>, line: string, key: string, v: nat)
    requires FromLastMatch(lines, key, v) && !StartsWith(line, key)
    ensures FromLastMatch(lines + [line], key, v)
  {
    var all := lines + [line];
    forall i | IsLastMatch(all, key, i)
      ensures v == MeminfoValue(all[i])
    {
      assert i < |lines|;
      assert all[i] == lines[i];
      assert forall j | i < j < |lines| :: lines[j] == all[j];
      assert IsLastMatch(lines, key, i);
    }
    if forall i | 0 <= i < |all| :: !StartsWith(all[i], key) {
      assert forall i | 0 <= i < |lines| :: lines[i] == all[i];
    }
  }

  lemma ExtendMatching(lines: seq<string>, line: string, key: string)
    requires StartsWith(line, key)
    ensures FromLastMatch(lines + [line], key, MeminfoValue(line))
  {
    var all := lines + [line];
    assert all[|lines|] == line;
    assert StartsWith(all[|lines|], key);
  }

  /** Each field of the scan comes from the last line starting with its key (0 when none). */
  lemma {:induction false} ScanTakesLastMatch(lines: seq<string>)
    ensures var m := Scan(lines);
            && FromLastMatch(lines, MemTotalKey, m.total)
            && FromLastMatch(lines, MemFreeKey, m.free)
            && FromLastMatch(lines, MemAvailableKey, m.available)
            && FromLastMatch(lines, BuffersKey, m.buffers)
            && FromLastMatch(lines, CachedKey, m.cached)
    decreases |lines|
  {
    if |lines| > 0 {
      var init, line := lines[..|lines| - 1], lines[|lines| - 1];
      assert lines == init + [line];
      ScanSnoc(init, line);
      ScanTakesLastMatch(init);
      var m := Scan(init);
      KeysExclusive(line);
      if StartsWith(line, MemTotalKey) { ExtendMatching(init, line, MemTotalKey); }
      else { ExtendNonMatching(init, line, MemTotalKey, m.total); }
      if StartsWith(line, MemFreeKey) { ExtendMatching(init, line, MemFreeKey); }
      else { ExtendNonMatching(init, line, MemFreeKey, m.free); }
      if StartsWith(line, MemAvailableKey) { ExtendMatching(init, line, MemAvailableKey); }
      else { ExtendNonMatching(init, line, MemAvailableKey, m.available); }
      if StartsWith(line, BuffersKey) { ExtendMatching(init, line, BuffersKey); }
      else { ExtendNonMatching(init, line, BuffersKey, m.buffers); }
      if StartsWith(line, CachedKey) { ExtendMatching(init, line, CachedKey); }
      else { ExtendNonMatching(init, line, CachedKey, m.cached); }
    }
  }

  /** A line that starts with none of the five keys. */
  predicate IsOtherLine(line: string) {
    && !StartsWith(line, MemTotalKey) && !StartsWith(line, MemFreeKey)
    && !StartsWith(line, MemAvailableKey) && !StartsWith(line, BuffersKey)
    && !StartsWith(line, CachedKey)
  }

  lemma ScanSnoc(lines: seq<string>, line: string)
    ensures Scan(lines + [line]) == Absorb(Scan(lines), line)
  {
    assert (lines + [line])[..|lines|] == lines;
  }

  /** Removing a line that starts with none of the keys, wherever it stands, changes nothing. */
  lemma {:induction false} OtherLineIgnored(before: seq<string>, line: string, after: seq<string>)
    requires IsOtherLine(line)
    ensures Scan(before + [line] + after) == Scan(before + after)
    decreases |after|
  {
    if |after| == 0 {
      assert before + [line] + after == before + [line];
      assert before + after == before;
      ScanSnoc(before, line);
    } else {
      var init, last := after[..|after| - 1], after[|after| - 1];
      var withLine, without := before + [line] + init, before + init;
      assert before + [line] + after == withLine + [last];
      assert before + after == without + [last];
      OtherLineIgnored(before, line, init);
      ScanSnoc(withLine, last);
      ScanSnoc(without, last);
    }
  }

  /** "SwapCached:" lines do not feed the `Cached:` column: matching is by exact prefix. */
  lemma SwapCachedIgnored(before: seq<string>, rest: string, after: seq<string>)
    ensures Scan(before + ["SwapCached:" + rest] + after) == Scan(before + after)
  {
    var line := "SwapCached:" + rest;
    assert line[0] == 'S';
    OtherLineIgnored(before, line, after);
  }

  // ---------------------------------------------------------------------------
  // /proc/<pid>/stat and /proc/uptime

  /** `read_stat`: whitespace tokens 13 and 14 (utime, stime). Indexing past the end of the
      token list panics in the source; `None` is a stat file that could not be read. */
  function ReadStat(contents: Option<string>): (r: Result<(nat, nat), SampleError>)
    ensures contents.None? ==> r == Failure(ReadFailed)
    ensures r.Success? ==>
              var tokens := SplitWhitespace(contents.value);
              && |tokens| >= 15
              && ParseU64(tokens[13]) == Some(r.value.0)
              && ParseU64(tokens[14]) == Some(r.value.1)
    ensures contents.Some? ==>
              var tokens := SplitWhitespace(contents.value);
              (r.Success? <==> |tokens| >= 15 && ParseU64(tokens[13]).Some? && ParseU64(tokens[14]).Some?)
    ensures contents.Some? && |SplitWhitespace(contents.value)| < 15 && r.Failure? ==> r.error in {Panicked, ParseFailed}
  {
    match contents
    case None => Failure(ReadFailed)
    case Some(text) =>
      var values := SplitWhitespace(text);
      if |values| <= 13 then Failure(Panicked)
      else match ParseU64(values[13])
      case None => Failure(ParseFailed)
      case Some(utime) =>
        if |values| <= 14 then Failure(Panicked)
        else match ParseU64(values[14])
        case None => Failure(ParseFailed)
        case Some(stime) => Success((utime, stime))
  }

  /** A stat line as the kernel prints it for a command name without whitespace, fields
      separated by one space and ended by a newline, whose fields 13 and 14 are printed
      counters, is read back to those counters. */
  lemma ReadStatOfFields(fields: seq<string>, utime: nat, stime: nat)
    requires |fields| >= 15 && forall k | 0 <= k < |fields| :: IsWord(fields[k])
    requires fields[13] == ShowNat(utime) && fields[14] == ShowNat(stime)
    requires utime < U64Limit && stime < U64Limit
    ensures ReadStat(Some(Join(fields, " ") + "\n")) == Success((utime, stime))
  {
    SplitJoin(fields, " ");
    SplitDropsTrailingBlank(Join(fields, " "), '\n', []);
  }

  /** The kernel prints the command name in parentheses as it is, spaces included. A name
      with one space makes every later field one token further on, so the counters read
      are cmajflt (5) and utime (40), and stime (60) is never read. */
  lemma ReadStatShiftsOnSpacedName()
    ensures ReadStat(Some(Join(["7", "(a", "b)", "S", "1", "7", "7", "0", "-1", "0", "0", "0", "0",
                                "5", "40", "60", "0", "0"], " ") + "\n"))
            == Success((5, 40))
  {
    var fields := ["7", "(a", "b)", "S", "1", "7", "7", "0", "-1", "0", "0", "0", "0", "5", "40", "60", "0", "0"];
    assert forall k | 0 <= k < |fields| :: IsWord(fields[k]);
    assert fields[13] == ShowNat(5) && fields[14] == ShowNat(40);
    ReadStatOfFields(fields, 5, 40);
  }

  /** `read_uptime`: the first token of `/proc/uptime` (or "0" when there is none) as a float. */
  function ReadUptime(contents: Option<string>): (r: Result<real, SampleError>)
    ensures contents.None? ==> r == Failure(ReadFailed)
    ensures contents.Some? && IsBlank(contents.value) ==> r == Success(0.0)
    ensures contents.Some? && |SplitWhitespace(contents.value)| > 0 ==>
              r == (match ParseF64(SplitWhitespace(contents.value)[0])
                    case Some(v) => Success(v)
                    case None => Failure(ParseFailed))
  {
    match contents
    case None => Failure(ReadFailed)
    case Some(text) =>
      var tokens := SplitWhitespace(text);
      SplitEmptyIffBlank(text, []);
      var first := if |tokens| > 0 then tokens[0] else "0";
      ParseZero();
      match ParseF64(first)
      case Some(v) => Success(v)
      case None => Failure(ParseFailed)
  }

  lemma ParseZero()
    ensures ParseF64("0") == Some(0.0)
  {
    assert ShowNat(0) == "0";
    ParseWhole(0);
    ParsePositive("0");
  }

  /** `/proc/uptime` begins with the uptime in seconds, printed as whole seconds, a dot and
      the fraction digits (the kernel prints two), then whitespace and the idle time: the
      reading is that decimal value. */
  lemma ReadUptimeOfText(whole: nat, frac: string, sep: string, rest: string)
    requires AllDigits(frac) && |sep| > 0 && IsBlank(sep)
    ensures ReadUptime(Some(ShowNat(whole) + "." + frac + sep + rest))
            == Success(whole as real + DigitsValue(frac) as real / Pow10(|frac|) as real)
  {
    var t := ShowNat(whole) + "." + frac;
    var text := t + sep + rest;
    UptimeToken(whole, frac);
    SplitWordThenBlank(t, sep, rest);
    var tokens := SplitWhitespace(text);
    assert |tokens| > 0 && tokens[0] == t;
  }

  /** The seconds token reads back as its decimal value. */
  lemma UptimeToken(whole: nat, frac: string)
    requires AllDigits(frac)
    ensures IsWord(ShowNat(whole) + "." + frac)
    ensures ParseF64(ShowNat(whole) + "." + frac)
            == Some(whole as real + DigitsValue(frac) as real / Pow10(|frac|) as real)
  {
    var w := ShowNat(whole);
    var t := w + "." + frac;
    DottedIsWord(w, frac);
    ParseWholeDotDigits(whole, frac);
    assert t[0] == w[0];
    ParsePositive(t);
  }

  lemma DottedIsWord(w: string, frac: string)
    requires AllDigits(w) && AllDigits(frac) && |w| > 0
    ensures IsWord(w + "." + frac)
  {
    var t := w + "." + frac;
    forall i | 0 <= i < |t|
      ensures IsDigit(t[i]) || t[i] == '.'
    {
      if i < |w| {
        assert t[i] == w[i];
      } else if i > |w| {
        assert t[i] == frac[i - |w| - 1];
      }
    }
  }

  lemma ShowTenthsNoWhitespace(x: real)
    ensures NoWhitespace(ShowTenths(x))
  {
    var k := (x * 10.0).Floor;
    var a: nat := if k < 0 then -k else k;
    TenthsTextNoWhitespace(a);
    assert ShowTenths(x) == (if k < 0 then "-" else "") + TenthsText(a);
  }

  lemma TenthsTextNoWhitespace(a: nat)
    ensures NoWhitespace(TenthsText(a))
  {
    var whole := ShowNat(a / 10);
    assert forall i | 0 <= i < |whole| :: IsDigit(whole[i]);
  }

  // ---------------------------------------------------------------------------
  // pgrep and /proc/<pid>/status

  /** `get_service_pids`: the pids `pgrep` printed, each token parsed as `u32` or else 0. */
  function ServicePids(out: Exec): (r: Result<seq<nat>, SampleError>)
    ensures out.NotStarted? ==> r == Failure(SpawnFailed)
    ensures out.Exited? && !out.success ==> r == Failure(CommandFailed(out.stderr))
    ensures out.Exited? && out.success ==> r.Success? && |r.value| == |SplitWhitespace(out.stdout)|
    ensures r.Success? ==> forall i | 0 <= i < |r.value| ::
              r.value[i] < U32Limit
              && (ParseU32(SplitWhitespace(out.stdout)[i]).Some? ==> r.value[i] == ParseU32(SplitWhitespace(out.stdout)[i]).value)
              && (ParseU32(SplitWhitespace(out.stdout)[i]).None? ==> r.value[i] == 0)
  {
    match out
    case NotStarted => Failure(SpawnFailed)
    case Exited(success, stdout, stderr) =>
      if !success then Failure(CommandFailed(stderr))
      else
        var tokens := SplitWhitespace(Trim(stdout));
        SplitIgnoresTrim(stdout);
        Success(seq(|tokens|, i requires 0 <= i < |tokens| => ParseU32(tokens[i]).GetOr(0)))
  }

  /** What `pgrep` prints for a list of pids: one pid per line. */
  function PgrepOutput(pids: seq<nat>): string {
    Unlines(seq(|pids|, i requires 0 <= i < |pids| => ShowNat(pids[i])))
  }

  /** Round trip: every pid `pgrep` prints is read back, in order. */
  lemma ServicePidsReadsPgrep(pids: seq<nat>)
    requires forall i | 0 <= i < |pids| :: pids[i] < U32Limit
    ensures ServicePids(Exited(true, PgrepOutput(pids), "")) == Success(pids)
  {
    var words := seq(|pids|, i requires 0 <= i < |pids| => ShowNat(pids[i]));
    forall k | 0 <= k < |words|
      ensures IsWord(words[k]) && ParseU32(words[k]) == Some(pids[k])
    {
      ShowNatIsWord(pids[k]);
    }
    SplitUnlines(words);
    var r := ServicePids(Exited(true, PgrepOutput(pids), ""));
    assert r.value == pids;
  }

  /** The pid tokens `cmd_check_memory_usage_mb` reads from `pgrep`, kept as text. */
  function PidTokens(out: Exec): (r: Result<seq<string>, SampleError>)
    ensures out.NotStarted? ==> r == Failure(SpawnFailed)
    ensures out.Exited? && !out.success ==> r == Failure(CommandFailed(out.stderr))
    ensures out.Exited? && out.success ==> r == Success(SplitWhitespace(out.stdout))
  {
    match out
    case NotStarted => Failure(SpawnFailed)
    case Exited(success, stdout, stderr) =>
      if !success then Failure(CommandFailed(stderr))
      else
        SplitIgnoresTrim(stdout);
        Success(SplitWhitespace(Trim(stdout)))
  }

  const VmRssKey := "VmRSS:"

  /** The kB one status line adds: nothing unless it starts with "VmRSS:"; then its second
      token as a `u64`, and a line without one, or with a non-number, is an error. */
  function LineRss(line: string): (r: Result<nat, SampleError>)
    ensures !StartsWith(line, VmRssKey) ==> r == Success(0)
    ensures r.Failure? ==> r.error in {FieldMissing, ParseFailed}
  {
    if !StartsWith(line, VmRssKey) then Success(0)
    else
      var tokens := SplitWhitespace(line);
      if |tokens| < 2 then Failure(FieldMissing)
      else match ParseU64(tokens[1])
      case None => Failure(ParseFailed)
      case Some(kb) => Success(kb)
  }

  /** The resident kB one `/proc/<pid>/status` reports: the sum over its lines, the first
      failing "VmRSS:" line failing the whole read. */
  function StatusRss(lines: seq<string>): (r: Result<nat, SampleError>)
    ensures (forall k | 0 <= k < |lines| :: !StartsWith(lines[k], VmRssKey)) ==> r == Success(0)
    ensures r.Failure? ==> r.error in {FieldMissing, ParseFailed}
    decreases |lines|
  {
    if |lines| == 0 then Success(0)
    else
      var kb :- LineRss(lines[0]);
      StatusRssStep(kb, StatusRss(lines[1..]))
  }

  /** The read succeeds exactly when every line's contribution does. */
  lemma {:induction false} StatusRssSucceedsIff(lines: seq<string>)
    ensures StatusRss(lines).Success? <==> forall k | 0 <= k < |lines| :: LineRss(lines[k]).Success?
    decreases |lines|
  {
    if |lines| > 0 {
      StatusRssSucceedsIff(lines[1..]);
      assert forall k | 1 <= k < |lines| :: lines[1..][k - 1] == lines[k];
    }
  }

  /** The status file read in two parts: the first failure wins, otherwise the kB add up. */
  lemma {:induction false} StatusRssAppend(a: seq<string>, b: seq<string>)
    ensures StatusRss(a + b) == Combine(StatusRss(a), StatusRss(b))
    decreases |a|
  {
    if |a| == 0 {
      assert a + b == b;
    } else {
      var ab := a + b;
      assert ab[0] == a[0];
      assert ab[1..] == a[1..] + b;
      var here := LineRss(a[0]);
      if here.Success? {
        var x, y := StatusRss(a[1..]), StatusRss(b);
        StatusRssAppend(a[1..], b);
        assert StatusRss(ab) == StatusRssStep(here.value, Combine(x, y));
        assert StatusRss(a) == StatusRssStep(here.value, x);
        StepCombine(here.value, x, y);
      }
    }
  }

  /** The outcome of two consecutive parts: the first failure, or the sum of the kB. */
  function Combine(x: Result<nat, SampleError>, y: Result<nat, SampleError>): (r: Result<nat, SampleError>)
    ensures r.Success? <==> x.Success? && y.Success?
  {
    if x.Failure? then x
    else if y.Failure? then y
    else Success(x.value + y.value)
  }


  /** One line's kB added to the outcome for the lines after it. */
  function StatusRssStep(kb: nat, rest: Result<nat, SampleError>): Result<nat, SampleError> {
    match rest
    case Failure(e) => Failure(e)
    case Success(restKb) => Success(kb + restKb)
  }

  /** A line that is not a "VmRSS:" line adds nothing. */
  lemma StatusRssSkips(lines: seq<string>)
    requires |lines| > 0 && !StartsWith(lines[0], VmRssKey)
    ensures StatusRss(lines) == StatusRss(lines[1..])
  {
  }

  lemma StepCombine(kb: nat, x: Result<nat, SampleError>, y: Result<nat, SampleError>)
    ensures StatusRssStep(kb, Combine(x, y)) == Combine(StatusRssStep(kb, x), y)
  {
  }

  /** The status line the kernel prints for a resident size of `kb` kB: the key, a tab, the
      right-aligning blank `pad`, the number and its unit. */
  function RssLine(pad: string, kb: nat): string {
    VmRssKey + "\t" + pad + ShowNat(kb) + " kB"
  }

  lemma RssLineTokens(pad: string, kb: nat)
    requires IsBlank(pad)
    ensures SplitWhitespace(RssLine(pad, kb)) == [VmRssKey, ShowNat(kb), "kB"]
  {
    var k := ShowNat(kb);
    ShowNatIsWord(kb);
    var sep := "\t" + pad;
    var tail := k + " " + "kB";
    assert RssLine(pad, kb) == VmRssKey + sep + tail;
    SplitSingleWord("kB");
    SplitWordThenBlank(k, " ", "kB");
    assert SplitWhitespace(tail) == [k, "kB"];
    SplitWordThenBlank(VmRssKey, sep, tail);
  }

  lemma LineRssOfRssLine(pad: string, kb: nat)
    requires IsBlank(pad) && kb < U64Limit
    ensures LineRss(RssLine(pad, kb)) == Success(kb)
  {
    var line := RssLine(pad, kb);
    assert StartsWith(line, VmRssKey) by {
      assert line[..|VmRssKey|] == VmRssKey;
    }
    RssLineTokens(pad, kb);
    ParseShowU64(kb);
  }

  lemma StatusRssOfFirstLine(pad: string, kb: nat, after: seq<string>)
    requires IsBlank(pad) && kb < U64Limit
    requires forall k | 0 <= k < |after| :: !StartsWith(after[k], VmRssKey)
    ensures StatusRss([RssLine(pad, kb)] + after) == Success(kb)
  {
    var tail := [RssLine(pad, kb)] + after;
    assert tail[0] == RssLine(pad, kb);
    assert tail[1..] == after;
    LineRssOfRssLine(pad, kb);
    assert StatusRss(after) == Success(0);
  }

  /** A status file with one printed "VmRSS:" line among any other lines reports exactly
      that many kB. */
  lemma {:induction false} StatusRssOfLine(before: seq<string>, pad: string, kb: nat, after: seq<string>)
    requires IsBlank(pad) && kb < U64Limit
    requires forall k | 0 <= k < |before| :: !StartsWith(before[k], VmRssKey)
    requires forall k | 0 <= k < |after| :: !StartsWith(after[k], VmRssKey)
    ensures StatusRss(before + [RssLine(pad, kb)] + after) == Success(kb)
    decreases |before|
  {
    var all := before + [RssLine(pad, kb)] + after;
    if |before| == 0 {
      assert all == [RssLine(pad, kb)] + after;
      StatusRssOfFirstLine(pad, kb, after);
    } else {
      assert all[0] == before[0];
      assert all[1..] == before[1..] + [RssLine(pad, kb)] + after;
      StatusRssSkips(all);
      StatusRssOfLine(before[1..], pad, kb, after);
    }
  }

  // ---------------------------------------------------------------------------
  // df

  /** `cmd_get_total_used_and_free_disk_space`: the output must hold exactly three tokens;
      the first two are read as `u64` and the third result is their difference. The
      subtraction is on `u64`, so with overflow checks on a second value above the first
      panics. */
  function DiskSpace(out: Exec): (r: Result<(nat, nat, nat), SampleError>)
    ensures out.NotStarted? ==> r == Failure(SpawnFailed)
    ensures out.Exited? && !out.success ==> r == Failure(CommandFailed(out.stderr))
    ensures out.Exited? && out.success && |SplitWhitespace(out.stdout)| != 3 ==> r == Failure(Malformed)
    ensures out.Exited? && out.success && |SplitWhitespace(out.stdout)| == 3 ==>
              r == DiskFigures(SplitWhitespace(out.stdout)[0], SplitWhitespace(out.stdout)[1])
    ensures r.Success? ==>
              var parts := SplitWhitespace(out.stdout);
              && |parts| == 3
              && ParseU64(parts[0]) == Some(r.value.0)
              && ParseU64(parts[1]) == Some(r.value.1)
              && r.value.1 + r.value.2 == r.value.0
  {
    match out
    case NotStarted => Failure(SpawnFailed)
    case Exited(success, stdout, stderr) =>
      if !success then Failure(CommandFailed(stderr))
      else
        var parts := SplitWhitespace(Trim(stdout));
        SplitIgnoresTrim(stdout);
        if |parts| != 3 then Failure(Malformed)
        else DiskFigures(parts[0], parts[1])
  }

  /** The two `u64` figures of the df output and their `u64` difference. */
  function DiskFigures(first: string, second: string): (r: Result<(nat, nat, nat), SampleError>)
    ensures r.Success? <==> ParseU64(first).Some? && ParseU64(second).Some?
                            && ParseU64(second).value <= ParseU64(first).value
    ensures ParseU64(first).None? || ParseU64(second).None? ==> r == Failure(ParseFailed)
    ensures ParseU64(first).Some? && ParseU64(second).Some? && ParseU64(second).value > ParseU64(first).value
            ==> r == Failure(Panicked)
    ensures r.Success? ==>
              && ParseU64(first) == Some(r.value.0) && ParseU64(second) == Some(r.value.1)
              && r.value.1 + r.value.2 == r.value.0
  {
    match ParseU64(first)
    case None => Failure(ParseFailed)
    case Some(total) =>
      match ParseU64(second)
      case None => Failure(ParseFailed)
      case Some(avail) =>
        if avail > total then Failure(Panicked)
        else Success((total, avail, total - avail))
  }

  /** The same query reading the two tokens `df / --output=size,avail | tail -n1` prints. */
  function DiskSpaceTwoColumns(out: Exec): (r: Result<(nat, nat, nat), SampleError>)
    ensures out.NotStarted? ==> r == Failure(SpawnFailed)
    ensures out.Exited? && !out.success ==> r == Failure(CommandFailed(out.stderr))
    ensures out.Exited? && out.success && |SplitWhitespace(out.stdout)| != 2 ==> r == Failure(Malformed)
    ensures out.Exited? && out.success && |SplitWhitespace(out.stdout)| == 2 ==>
              r == DiskFigures(SplitWhitespace(out.stdout)[0], SplitWhitespace(out.stdout)[1])
    ensures r.Success? ==>
              var parts := SplitWhitespace(out.stdout);
              && |parts| == 2
              && ParseU64(parts[0]) == Some(r.value.0)
              && ParseU64(parts[1]) == Some(r.value.1)
              && r.value.1 + r.value.2 == r.value.0
  {
    match out
    case NotStarted => Failure(SpawnFailed)
    case Exited(success, stdout, stderr) =>
      if !success then Failure(CommandFailed(stderr))
      else
        var parts := SplitWhitespace(Trim(stdout));
        SplitIgnoresTrim(stdout);
        if |parts| != 2 then Failure(Malformed)
        else DiskFigures(parts[0], parts[1])
  }

  /** A line `df / --output=size,avail | tail -n1` prints: the two figures right-aligned
      under their headings, so led by a blank `pad` and parted by a non-empty blank `gap`. */
  function DfLine(pad: string, size: nat, gap: string, avail: nat): string {
    pad + ShowNat(size) + gap + ShowNat(avail) + "\n"
  }

  lemma DfLineTokens(pad: string, size: nat, gap: string, avail: nat)
    requires IsBlank(pad) && |gap| > 0 && IsBlank(gap)
    ensures SplitWhitespace(DfLine(pad, size, gap, avail)) == [ShowNat(size), ShowNat(avail)]
  {
    var s, v := ShowNat(size), ShowNat(avail);
    ShowNatIsWord(size);
    ShowNatIsWord(avail);
    var last := v + "\n" + [];
    var tail := s + gap + last;
    assert DfLine(pad, size, gap, avail) == pad + tail;
    SplitWordThenBlank(v, "\n", []);
    assert SplitWhitespace([]) == [];
    assert SplitWhitespace(last) == [v];
    SplitWordThenBlank(s, gap, last);
    assert SplitWhitespace(tail) == [s, v];
    SplitBlankThenText(pad, tail);
  }

  /** The three-token check rejects every line the df command line can print. */
  lemma DiskSpaceRejectsDfOutput(pad: string, size: nat, gap: string, avail: nat)
    requires IsBlank(pad) && |gap| > 0 && IsBlank(gap)
    ensures DiskSpace(Exited(true, DfLine(pad, size, gap, avail), "")) == Failure(Malformed)
  {
    DfLineTokens(pad, size, gap, avail);
  }

  /** Reading the two printed figures instead yields total, available and their difference. */
  lemma DiskSpaceTwoColumnsReadsDfOutput(pad: string, size: nat, gap: string, avail: nat)
    requires IsBlank(pad) && |gap| > 0 && IsBlank(gap)
    requires avail <= size < U64Limit
    ensures DiskSpaceTwoColumns(Exited(true, DfLine(pad, size, gap, avail), ""))
            == Success((size, avail, size - avail))
  {
    DfLineTokens(pad, size, gap, avail);
    ParseShowU64(size);
    ParseShowU64(avail);
  }
}

=== FILE: samplers.dfy ===
/** The sampling arithmetic of `CmdHealCheck`: the two-snapshot CPU formula, the one-decimal
    truncation, `cmd_check_cpu_load` and `cmd_check_memory_usage_mb`. Floats are reals. */
module Samplers {
  import opened Wrappers
  import opened Text
  import opened Numbers
  import opened Os
  import opened ProcParsers

  // ---------------------------------------------------------------------------
  // Truncation to one decimal

  /** `(x * 10.0).trunc() / 10.0`. */
  function Trunc1(x: real): (r: real)
    ensures IsTenths(r)
    ensures x >= 0.0 ==> 0.0 <= r <= x && x - r < 0.1
    ensures x < 0.0 ==> x <= r <= 0.0 && r - x < 0.1
  {
    Trunc1Bounds(x);
    TruncTowardZero(x * 10.0) as real / 10.0
  }

  lemma Trunc1Bounds(x: real)
    ensures var r := TruncTowardZero(x * 10.0) as real / 10.0;
            && IsTenths(r)
            && (x >= 0.0 ==> 0.0 <= r <= x && x - r < 0.1)
            && (x < 0.0 ==> x <= r <= 0.0 && r - x < 0.1)
  {
    var n := TruncTowardZero(x * 10.0);
    var r := n as real / 10.0;
    assert r * 10.0 == n as real;
    assert (r * 10.0).Floor == n;
  }

  /** For a non-negative value the truncation is the largest whole number of tenths not
      above it: it rounds down, never to the nearest tenth. */
  lemma Trunc1IsLargestTenthBelow(x: real, k: int)
    requires x >= 0.0 && k as real / 10.0 <= x
    ensures k as real / 10.0 <= Trunc1(x)
  {
    var n := TruncTowardZero(x * 10.0);
    assert k as real <= x * 10.0;
    assert n as real <= x * 10.0 < n as real + 1.0;
    assert k <= n;
  }

  /** A value that is already a whole number of tenths is left alone; so truncating twice
      is truncating once. */
  lemma Trunc1Idempotent(x: real)
    ensures IsTenths(x) ==> Trunc1(x) == x
    ensures Trunc1(Trunc1(x)) == Trunc1(x)
  {
    forall y: real | IsTenths(y)
      ensures Trunc1(y) == y
    {
      var k := (y * 10.0).Floor;
      assert k as real == y * 10.0;
      if y >= 0.0 {
        Trunc1IsLargestTenthBelow(y, k);
      } else {
        assert TruncTowardZero(y * 10.0) == k;
      }
    }
  }

  /** 12.37 becomes 12.3, not 12.4. */
  lemma Trunc1Example()
    ensures Trunc1(12.37) == 12.3
  {
    assert TruncTowardZero(123.7) == 123;
  }

  // ---------------------------------------------------------------------------
  // CPU

  /** `calculate_cpu_usage`: the growth of utime + stime divided by `elapsed * 100`, or exactly
      0 when the uptime did not advance. */
  function CpuUsage(first: (nat, nat), second: (nat, nat), firstUptime: real, secondUptime: real): (r: real)
    ensures secondUptime - firstUptime <= 0.0 ==> r == 0.0
    ensures secondUptime - firstUptime > 0.0 ==>
              r * ((secondUptime - firstUptime) * 100.0) == ((second.0 + second.1) - (first.0 + first.1)) as real
    ensures r < 0.0 <==> secondUptime > firstUptime && second.0 + second.1 < first.0 + first.1
  {
    var totalFirst := first.0 + first.1;
    var totalSecond := second.0 + second.1;
    var diff := totalSecond as real - totalFirst as real;
    var elapsed := secondUptime - firstUptime;
    if elapsed > 0.0 then diff / (elapsed * 100.0) else 0.0
  }

  /** The formula yields a fraction of one core at 100 ticks per second, not a percentage:
      100 ticks in one second give 1.0. */
  lemma CpuUsageOneCoreExample()
    ensures CpuUsage((1000, 500), (1060, 540), 50.0, 51.0) == 1.0
  {
  }

  /** The values of a list of outcomes, in order; the first failure is the result. */
  function Collect<T>(rs: seq<Result<T, SampleError>>): (r: Result<seq<T>, SampleError>)
    ensures r.Success? ==> |r.value| == |rs|
    decreases |rs|
  {
    if |rs| == 0 then Success([])
    else
      var x :- rs[0];
      var rest :- Collect(rs[1..]);
      Success([x] + rest)
  }

  /** `Collect` succeeds exactly when every outcome does, then holds every value in order;
      otherwise it fails with the error of the first failing outcome. */
  lemma {:induction false} CollectReadsEvery<T>(rs: seq<Result<T, SampleError>>)
    ensures var r := Collect(rs);
            && (r.Success? <==> forall i | 0 <= i < |rs| :: rs[i].Success?)
            && (r.Success? ==> forall i | 0 <= i < |rs| :: r.value[i] == rs[i].value)
            && (r.Failure? ==> exists i | 0 <= i < |rs| ::
                  rs[i] == Failure(r.error) && forall j | 0 <= j < i :: rs[j].Success?)
    decreases |rs|
  {
    if |rs| > 0 {
      var r := Collect(rs);
      var tail := rs[1..];
      CollectReadsEvery(tail);
      assert forall i | 1 <= i < |rs| :: rs[i] == tail[i - 1];
      if rs[0].Success? {
        var rest := Collect(tail);
        if rest.Failure? {
          var i :| 0 <= i < |tail| && tail[i] == Failure(rest.error)
                   && forall j | 0 <= j < i :: tail[j].Success?;
          assert rs[i + 1] == Failure(r.error);
        } else {
          assert r.value == [rs[0].value] + rest.value;
        }
      } else {
        assert rs[0] == Failure(r.error);
      }
    }
  }

  /** The outcome of `read_stat` for each pid of one snapshot of `/proc/<pid>/stat` (a pid
      missing from the snapshot has vanished). */
  function StatsOf(pids: seq<nat>, snapshot: map<nat, string>): (rs: seq<Result<(nat, nat), SampleError>>)
    ensures |rs| == |pids|
    ensures forall i | 0 <= i < |pids| :: rs[i] == ReadStat(Lookup(snapshot, pids[i]))
  {
    seq(|pids|, i requires 0 <= i < |pids| => ReadStat(Lookup(snapshot, pids[i])))
  }

  /** The (utime, stime) of every pid in `pids`, read in order from one snapshot; the first
      failing pid fails the whole snapshot. */
  function ReadStats(pids: seq<nat>, snapshot: map<nat, string>): (r: Result<seq<(nat, nat)>, SampleError>)
    ensures r.Success? ==> |r.value| == |pids|
  {
    Collect(StatsOf(pids, snapshot))
  }

  /** A snapshot succeeds exactly when every pid's stat file reads; it then holds every pid's
      counters in pid order, and otherwise fails with the error of the first pid that fails. */
  lemma ReadStatsReadsEveryPid(pids: seq<nat>, snapshot: map<nat, string>)
    ensures var r := ReadStats(pids, snapshot);
            && (r.Success? <==> forall i | 0 <= i < |pids| :: ReadStat(Lookup(snapshot, pids[i])).Success?)
            && (r.Success? ==> forall i | 0 <= i < |pids| :: r.value[i] == ReadStat(Lookup(snapshot, pids[i])).value)
            && (r.Failure? ==> exists i | 0 <= i < |pids| ::
                  && ReadStat(Lookup(snapshot, pids[i])) == Failure(r.error)
                  && forall j | 0 <= j < i :: ReadStat(Lookup(snapshot, pids[j])).Success?)
  {
    CollectReadsEvery(StatsOf(pids, snapshot));
  }

  /** The per-pid usages summed in pid order. */
  function SumUsage(first: seq<(nat, nat)>, second: seq<(nat, nat)>, firstUptime: real, secondUptime: real): real
    requires |first| == |second|
    decreases |first|
  {
    if |first| == 0 then 0.0
    else CpuUsage(first[0], second[0], firstUptime, secondUptime)
         + SumUsage(first[1..], second[1..], firstUptime, secondUptime)
  }

  /** When no counter went backwards and time advanced, the summed usage is not negative. */
  lemma {:induction false} SumUsageNonNegative(first: seq<(nat, nat)>, second: seq<(nat, nat)>, up1: real, up2: real)
    requires |first| == |second|
    requires forall i | 0 <= i < |first| :: first[i].0 + first[i].1 <= second[i].0 + second[i].1
    ensures SumUsage(first, second, up1, up2) >= 0.0
    decreases |first|
  {
    if |first| > 0 {
      SumUsageNonNegative(first[1..], second[1..], up1, up2);
    }
  }

  /** When the uptime did not advance every pid contributes 0. */
  lemma {:induction false} SumUsageNoElapsed(first: seq<(nat, nat)>, second: seq<(nat, nat)>, up1: real, up2: real)
    requires |first| == |second| && up2 <= up1
    ensures SumUsage(first, second, up1, up2) == 0.0
    decreases |first|
  {
    if |first| > 0 {
      SumUsageNoElapsed(first[1..], second[1..], up1, up2);
    }
  }

  /** The OS state `cmd_check_cpu_load` reads: the `pgrep` run, then two snapshots of
      `/proc/<pid>/stat` and `/proc/uptime` one second apart. */
  datatype CpuObservation = CpuObservation(
    pgrep: Exec,
    firstStats: map<nat, string>, firstUptime: Option<string>,
    secondStats: map<nat, string>, secondUptime: Option<string>)

  /** `cmd_check_cpu_load`: the summed two-snapshot usage of every pid of the service,
      truncated to one decimal. Any failure in either snapshot fails the whole sample. */
  function CheckCpuLoad(service: string, obs: CpuObservation): (r: Result<real, SampleError>)
    ensures ServicePids(obs.pgrep).Failure? ==> r == Failure(ServicePids(obs.pgrep).error)
    ensures ServicePids(obs.pgrep) == Success([]) ==> r == Failure(ServiceNotFound(service))
    ensures r.Success? ==> IsTenths(r.value)
  {
    var pids :- ServicePids(obs.pgrep);
    if |pids| == 0 then Failure(ServiceNotFound(service))
    else
      var first :- ReadStats(pids, obs.firstStats);
      var up1 :- ReadUptime(obs.firstUptime);
      var second :- ReadStats(pids, obs.secondStats);
      var up2 :- ReadUptime(obs.secondUptime);
      Success(Trunc1(SumUsage(first, second, up1, up2)))
  }

  /** Once pgrep names some pids and both snapshots and both uptimes read, the sample
      succeeds with the summed usage truncated toward zero to a tenth. */
  lemma CheckCpuLoadOfReads(service: string, obs: CpuObservation, pids: seq<nat>,
                            first: seq<(nat, nat)>, second: seq<(nat, nat)>, up1: real, up2: real)
    requires ServicePids(obs.pgrep) == Success(pids) && |pids| > 0
    requires ReadStats(pids, obs.firstStats) == Success(first) && ReadUptime(obs.firstUptime) == Success(up1)
    requires ReadStats(pids, obs.secondStats) == Success(second) && ReadUptime(obs.secondUptime) == Success(up2)
    ensures CheckCpuLoad(service, obs) == Success(Trunc1(SumUsage(first, second, up1, up2)))
  {
  }

  /** A pid that vanished before either snapshot fails the whole sample: no pid is skipped. */
  lemma CheckCpuLoadNeedsEveryPid(service: string, obs: CpuObservation, i: nat)
    requires ServicePids(obs.pgrep).Success?
    requires i < |ServicePids(obs.pgrep).value|
    requires ServicePids(obs.pgrep).value[i] !in obs.firstStats || ServicePids(obs.pgrep).value[i] !in obs.secondStats
    ensures CheckCpuLoad(service, obs).Failure?
  {
    var pids := ServicePids(obs.pgrep).value;
    if pids[i] !in obs.firstStats {
      ReadStatsNeedsPid(pids, obs.firstStats, i);
    } else {
      ReadStatsNeedsPid(pids, obs.secondStats, i);
    }
  }

  /** A snapshot missing one pid's stat file fails. */
  lemma ReadStatsNeedsPid(pids: seq<nat>, snapshot: map<nat, string>, i: nat)
    requires i < |pids| && pids[i] !in snapshot
    ensures ReadStats(pids, snapshot).Failure?
  {
    ReadStatsReadsEveryPid(pids, snapshot);
    assert Lookup(snapshot, pids[i]).None?;
    assert ReadStat(Lookup(snapshot, pids[i])).Failure?;
  }

  /** On success the load is the summed usage truncated toward zero to a tenth: below it by
      less than 0.1 when no counter went backwards, and exactly 0 when the uptime did not
      advance. */
  lemma CheckCpuLoadValue(service: string, obs: CpuObservation)
    ensures CheckCpuLoad(service, obs).Success? ==>
              && ServicePids(obs.pgrep).Success? && |ServicePids(obs.pgrep).value| > 0
              && var pids := ServicePids(obs.pgrep).value;
                 && ReadStats(pids, obs.firstStats).Success? && ReadStats(pids, obs.secondStats).Success?
                 && ReadUptime(obs.firstUptime).Success? && ReadUptime(obs.secondUptime).Success?
                 && var first := ReadStats(pids, obs.firstStats).value;
                    var second := ReadStats(pids, obs.secondStats).value;
                    var up1 := ReadUptime(obs.firstUptime).value;
                    var up2 := ReadUptime(obs.secondUptime).value;
                    var load := CheckCpuLoad(service, obs).value;
                    && load == Trunc1(SumUsage(first, second, up1, up2))
                    && (up2 <= up1 ==> load == 0.0)
                    && ((forall i | 0 <= i < |pids| :: first[i].0 + first[i].1 <= second[i].0 + second[i].1) ==>
                          0.0 <= load <= SumUsage(first, second, up1, up2) < load + 0.1)
  {
    if CheckCpuLoad(service, obs).Success? {
      var pids := ServicePids(obs.pgrep).value;
      var fr := ReadStats(pids, obs.firstStats);
      var u1 := ReadUptime(obs.firstUptime);
      var sr := ReadStats(pids, obs.secondStats);
      var u2 := ReadUptime(obs.secondUptime);
      assert fr.Success? && u1.Success? && sr.Success? && u2.Success?;
      var first, second, up1, up2 := fr.value, sr.value, u1.value, u2.value;
      var total := SumUsage(first, second, up1, up2);
      assert CheckCpuLoad(service, obs).value == Trunc1(total);
      if up2 <= up1 {
        SumUsageNoElapsed(first, second, up1, up2);
        assert Trunc1(0.0) == 0.0;
      }
      if forall i | 0 <= i < |pids| :: first[i].0 + first[i].1 <= second[i].0 + second[i].1 {
        SumUsageNonNegative(first, second, up1, up2);
      }
    }
  }

  // ---------------------------------------------------------------------------
  // Memory

  /** The VmRSS kB one pid's status file reports; a missing file fails. */
  function PidRss(pid: string, status: map<string, string>): (r: Result<nat, SampleError>)
    ensures pid !in status ==> r == Failure(ReadFailed)
  {
    match Lookup(status, pid)
    case None => Failure(ReadFailed)
    case Some(contents) => StatusRss(Lines(contents))
  }

  /** Per-pid outcomes summed in order; the first failure is the result. */
  function SumKb(rs: seq<Result<nat, SampleError>>): Result<nat, SampleError>
    decreases |rs|
  {
    if |rs| == 0 then Success(0)
    else
      var kb :- rs[0];
      var restKb :- SumKb(rs[1..]);
      Success(kb + restKb)
  }

  /** The sum succeeds exactly when every outcome does. */
  lemma {:induction false} SumKbSucceedsIff(rs: seq<Result<nat, SampleError>>)
    ensures SumKb(rs).Success? <==> forall i | 0 <= i < |rs| :: rs[i].Success?
    decreases |rs|
  {
    if |rs| > 0 {
      SumKbSucceedsIff(rs[1..]);
      assert forall i | 1 <= i < |rs| :: rs[i] == rs[1..][i - 1];
    }
  }

  lemma {:induction false} SumKbAppend(x: seq<Result<nat, SampleError>>, y: seq<Result<nat, SampleError>>)
    requires SumKb(x).Success? && SumKb(y).Success?
    ensures SumKb(x + y) == Success(SumKb(x).value + SumKb(y).value)
    decreases |x|
  {
    if |x| == 0 {
      assert x + y == y;
    } else {
      var xy := x + y;
      assert xy[0] == x[0];
      assert xy[1..] == x[1..] + y;
      SumKbAppend(x[1..], y);
    }
  }

  /** `f` applied to each element, in order. */
  function MapSeq<A, B>(xs: seq<A>, f: A -> B): (ys: seq<B>)
    ensures |ys| == |xs|
    ensures forall i | 0 <= i < |xs| :: ys[i] == f(xs[i])
  {
    seq(|xs|, i requires 0 <= i < |xs| => f(xs[i]))
  }

  lemma MapSeqAppend<A, B>(xs: seq<A>, ys: seq<A>, f: A -> B)
    ensures MapSeq(xs + ys, f) == MapSeq(xs, f) + MapSeq(ys, f)
  {
  }

  /** The VmRSS outcome of a pid token, for one set of status files. */
  function RssOf(status: map<string, string>): string -> Result<nat, SampleError> {
    pid => PidRss(pid, status)
  }

  /** The VmRSS kB of every pid token, summed; the first unreadable status file or
      malformed VmRSS line fails the whole sum. */
  function TotalRss(pids: seq<string>, status: map<string, string>): (r: Result<nat, SampleError>)
    ensures r.Success? <==> forall i | 0 <= i < |pids| :: PidRss(pids[i], status).Success?
    ensures (exists i | 0 <= i < |pids| :: pids[i] !in status) ==> r.Failure?
  {
    SumKbSucceedsIff(MapSeq(pids, RssOf(status)));
    SumKb(MapSeq(pids, RssOf(status)))
  }

  /** The total over a list of pids is the sum of the totals over its parts. */
  lemma TotalRssAppend(a: seq<string>, b: seq<string>, status: map<string, string>)
    requires TotalRss(a, status).Success? && TotalRss(b, status).Success?
    ensures TotalRss(a + b, status) == Success(TotalRss(a, status).value + TotalRss(b, status).value)
  {
    var f := RssOf(status);
    var xs, ys := MapSeq(a, f), MapSeq(b, f);
    assert TotalRss(a, status) == SumKb(xs);
    assert TotalRss(b, status) == SumKb(ys);
    MapSeqAppend(a, b, f);
    SumKbAppend(xs, ys);
    assert TotalRss(a + b, status) == SumKb(xs + ys);
  }

  /** `cmd_check_memory_usage_mb`: the VmRSS total of every pid of the service, in MB,
      truncated to one decimal. */
  function CheckMemoryUsageMb(service: string, pgrep: Exec, status: map<string, string>): (r: Result<real, SampleError>)
    ensures PidTokens(pgrep).Failure? ==> r == Failure(PidTokens(pgrep).error)
    ensures PidTokens(pgrep) == Success([]) ==> r == Failure(ServiceNotFound(service))
    ensures PidTokens(pgrep).Success? && (exists i | 0 <= i < |PidTokens(pgrep).value| :: PidTokens(pgrep).value[i] !in status)
            ==> r.Failure?
    ensures r.Success? ==>
              && PidTokens(pgrep).Success? && TotalRss(PidTokens(pgrep).value, status).Success?
              && var kb := TotalRss(PidTokens(pgrep).value, status).value;
              && IsTenths(r.value)
              && 0.0 <= r.value <= kb as real / 1024.0 < r.value + 0.1
  {
    var pids :- PidTokens(pgrep);
    if |pids| == 0 then Failure(ServiceNotFound(service))
    else
      var kb :- TotalRss(pids, status);
      Success(Trunc1(kb as real / 1024.0))
  }

  /** A status file whose one "VmRSS:" line, among any other lines, prints `kb` kB gives
      its pid exactly `kb`. */
  lemma PidRssOfStatus(pid: string, before: seq<string>, pad: string, kb: nat, after: seq<string>,
                       status: map<string, string>)
    requires IsBlank(pad) && '\n' !in pad && kb < U64Limit
    requires forall k | 0 <= k < |before| :: IsLine(before[k]) && !StartsWith(before[k], VmRssKey)
    requires forall k | 0 <= k < |after| :: IsLine(after[k]) && !StartsWith(after[k], VmRssKey)
    requires pid in status && status[pid] == Unlines(before + [RssLine(pad, kb)] + after)
    ensures PidRss(pid, status) == Success(kb)
  {
    var line := RssLine(pad, kb);
    RssLineIsLine(pad, kb);
    var all := before + [line] + after;
    forall k | 0 <= k < |all|
      ensures IsLine(all[k])
    {
      if k < |before| {
        assert all[k] == before[k];
      } else if k > |before| {
        assert all[k] == after[k - |before| - 1];
      }
    }
    LinesUnlines(all);
    StatusRssOfLine(before, pad, kb, after);
  }

  lemma RssLineIsLine(pad: string, kb: nat)
    requires '\n' !in pad
    ensures IsLine(RssLine(pad, kb))
  {
    var digits := ShowNat(kb);
    var l := RssLine(pad, kb);
    var head := VmRssKey + "\t";
    assert l == head + pad + digits + " kB";
    assert l[|l| - 1] == 'B';
    assert forall i | 0 <= i < |digits| :: IsDigit(digits[i]);
    forall i | 0 <= i < |l|
      ensures l[i] != '\n'
    {
      if i < |head| {
        assert l[i] == head[i];
      } else if i < |head| + |pad| {
        assert l[i] == pad[i - |head|];
      } else if i < |head| + |pad| + |digits| {
        assert l[i] == digits[i - |head| - |pad|];
      }
    }
  }

  /** `pgrep` printing one pid per line: the pid tokens are those lines, in order. */
  lemma PidTokensOfPgrep(pids: seq<string>)
    requires forall k | 0 <= k < |pids| :: IsWord(pids[k])
    ensures PidTokens(Exited(true, Unlines(pids), "")) == Success(pids)
  {
    SplitUnlines(pids);
  }

  lemma TotalRssTwo(a: string, b: string, kbA: nat, kbB: nat, status: map<string, string>)
    requires PidRss(a, status) == Success(kbA) && PidRss(b, status) == Success(kbB)
    ensures TotalRss([a, b], status) == Success(kbA + kbB)
  {
    assert MapSeq([a, b], RssOf(status)) == [Success(kbA), Success(kbB)];
    SumKbTwo(kbA, kbB);
  }

  lemma SumKbTwo(x: nat, y: nat)
    ensures SumKb([Success(x), Success(y)]) == Success(x + y)
  {
    var rs: seq<Result<nat, SampleError>> := [Success(x), Success(y)];
    assert |rs[1..][1..]| == 0;
    assert SumKb(rs[1..][1..]) == Success(0);
    assert SumKb(rs[1..]) == Success(y);
  }

  /** Two processes, printed by `pgrep` one per line, whose status files report `kbA` and
      `kbB` kB (as a printed VmRSS line does, by `PidRssOfStatus`) give their sum in MB,
      truncated to a tenth. */
  lemma MemoryUsageOfTwoPids(service: string, a: string, b: string, kbA: nat, kbB: nat, status: map<string, string>)
    requires IsWord(a) && IsWord(b)
    requires PidRss(a, status) == Success(kbA) && PidRss(b, status) == Success(kbB)
    ensures CheckMemoryUsageMb(service, Exited(true, Unlines([a, b]), ""), status)
            == Success(Trunc1((kbA + kbB) as real / 1024.0))
  {
    var pids := [a, b];
    assert forall k | 0 <= k < |pids| :: IsWord(pids[k]);
    PidTokensOfPgrep(pids);
    TotalRssTwo(a, b, kbA, kbB, status);
    MemoryUsageOfTotal(service, Exited(true, Unlines(pids), ""), pids, kbA + kbB, status);
  }

  /** Once pgrep has named some pids and their RSS sums to `kb`, the sample is `kb` in MB. */
  lemma MemoryUsageOfTotal(service: string, pgrep: Exec, pids: seq<string>, kb: nat, status: map<string, string>)
    requires PidTokens(pgrep) == Success(pids) && |pids| != 0
    requires TotalRss(pids, status) == Success(kb)
    ensures CheckMemoryUsageMb(service, pgrep, status) == Success(Trunc1(kb as real / 1024.0))
  {
  }

  /** 1024 kB and 2048 kB make 3.0 MB. */
  lemma MemoryUsageExample()
    ensures Trunc1((1024 + 2048) as real / 1024.0) == 3.0
  {
    assert TruncTowardZero(30.0) == 30;
  }
}

=== FILE: text.dfy ===
/** The string primitives of Rust's `str` that the monitor relies on:
    `char::is_whitespace`, `split_whitespace`, `trim`, `lines` and `starts_with`. */
module Text {

  /** Unicode `White_Space`, the set `char::is_whitespace` recognises. */
  predicate IsWhitespace(c: char) {
    || c == ' '
    || ('\t' <= c <= '\r')
    || c == '\U{0085}' || c == '\U{00A0}' || c == '\U{1680}'
    || ('\U{2000}' <= c <= '\U{200A}')
    || c == '\U{2028}' || c == '\U{2029}' || c == '\U{202F}' || c == '\U{205F}' || c == '\U{3000}'
  }

  /** Every character of `s` is whitespace (this includes the empty string). */
  predicate IsBlank(s: string) {
    forall i | 0 <= i < |s| :: IsWhitespace(s[i])
  }

  /** No character of `s` is whitespace. */
  predicate NoWhitespace(s: string) {
    forall i | 0 <= i < |s| :: !IsWhitespace(s[i])
  }

  /** A token `split_whitespace` can yield: non-empty and free of whitespace. */
  predicate IsWord(s: string) {
    |s| > 0 && NoWhitespace(s)
  }

  predicate StartsWith(s: string, prefix: string) {
    |prefix| <= |s| && s[..|prefix|] == prefix
  }

  // ---------------------------------------------------------------------------
  // split_whitespace

  /** Splitting state machine: `cur` is the token read so far. */
  function SplitFrom(s: string, cur: string): (tokens: seq<string>)
    requires NoWhitespace(cur)
    ensures forall k | 0 <= k < |tokens| :: IsWord(tokens[k])
    decreases |s|
  {
    if |s| == 0 then
      (if |cur| == 0 then [] else [cur])
    else if IsWhitespace(s[0]) then
      (if |cur| == 0 then [] else [cur]) + SplitFrom(s[1..], [])
    else
      SplitFrom(s[1..], cur + [s[0]])
  }

  /** `str::split_whitespace`: the maximal runs of non-whitespace characters, in order. */
  function SplitWhitespace(s: string): seq<string> {
    SplitFrom(s, [])
  }

  /** A word followed by more text is absorbed into the current token. */
  lemma {:induction false} SplitWordPrefix(w: string, rest: string, cur: string)
    requires NoWhitespace(w) && NoWhitespace(cur)
    ensures NoWhitespace(cur + w)
    ensures SplitFrom(w + rest, cur) == SplitFrom(rest, cur + w)
    decreases |w|
  {
    if |w| > 0 {
      assert (w + rest)[0] == w[0];
      assert (w + rest)[1..] == w[1..] + rest;
      assert cur + [w[0]] + w[1..] == cur + w;
      SplitWordPrefix(w[1..], rest, cur + [w[0]]);
    } else {
      assert w + rest == rest;
      assert cur + w == cur;
    }
  }

  /** A non-empty run of whitespace ends the current token. */
  lemma {:induction false} SplitBlankPrefix(sep: string, rest: string, cur: string)
    requires |sep| > 0 && IsBlank(sep) && NoWhitespace(cur)
    ensures SplitFrom(sep + rest, cur) == (if |cur| == 0 then [] else [cur]) + SplitFrom(rest, [])
    decreases |sep|
  {
    assert (sep + rest)[0] == sep[0];
    assert (sep + rest)[1..] == sep[1..] + rest;
    if |sep| > 1 {
      SplitBlankPrefix(sep[1..], rest, []);
    } else {
      assert sep[1..] + rest == rest;
    }
  }

  /** A single word splits to itself. */
  lemma SplitSingleWord(w: string)
    requires IsWord(w)
    ensures SplitWhitespace(w) == [w]
  {
    SplitWordPrefix(w, [], []);
    assert w + [] == w;
    assert [] + w == w;
  }

  /** Word `w`, a whitespace separator, then more text: `w` is the first token. */
  lemma SplitWordThenBlank(w: string, sep: string, rest: string)
    requires IsWord(w) && |sep| > 0 && IsBlank(sep)
    ensures SplitWhitespace(w + sep + rest) == [w] + SplitWhitespace(rest)
  {
    assert w + sep + rest == w + (sep + rest);
    SplitWordPrefix(w, sep + rest, []);
    assert [] + w == w;
    SplitBlankPrefix(sep, rest, w);
  }

  /** Leading whitespace produces no token. */
  lemma SplitBlankThenText(sep: string, rest: string)
    requires IsBlank(sep)
    ensures SplitWhitespace(sep + rest) == SplitWhitespace(rest)
  {
    if |sep| > 0 {
      SplitBlankPrefix(sep, rest, []);
    } else {
      assert sep + rest == rest;
    }
  }

  /** `tokens` joined by the whitespace separator `sep`. */
  function Join(tokens: seq<string>, sep: string): string
    decreases |tokens|
  {
    if |tokens| == 0 then []
    else if |tokens| == 1 then tokens[0]
    else tokens[0] + sep + Join(tokens[1..], sep)
  }

  /** Round trip: splitting words joined by whitespace gives the words back. */
  lemma {:induction false} SplitJoin(tokens: seq<string>, sep: string)
    requires forall k | 0 <= k < |tokens| :: IsWord(tokens[k])
    requires |sep| > 0 && IsBlank(sep)
    ensures SplitWhitespace(Join(tokens, sep)) == tokens
    decreases |tokens|
  {
    if |tokens| == 1 {
      SplitSingleWord(tokens[0]);
    } else if |tokens| > 1 {
      SplitWordThenBlank(tokens[0], sep, Join(tokens[1..], sep));
      SplitJoin(tokens[1..], sep);
      assert [tokens[0]] + tokens[1..] == tokens;
    }
  }

  /** Round trip: words written one per line split back into those words. */
  lemma {:induction false} SplitUnlines(words: seq<string>)
    requires forall k | 0 <= k < |words| :: IsWord(words[k])
    ensures SplitWhitespace(Unlines(words)) == words
    decreases |words|
  {
    if |words| > 0 {
      SplitWordThenBlank(words[0], "\n", Unlines(words[1..]));
      SplitUnlines(words[1..]);
      assert [words[0]] + words[1..] == words;
    }
  }

  /** `split_whitespace` yields nothing exactly when the text is blank. */
  lemma {:induction false} SplitEmptyIffBlank(s: string, cur: string)
    requires NoWhitespace(cur)
    ensures SplitFrom(s, cur) == [] <==> |cur| == 0 && IsBlank(s)
    decreases |s|
  {
    if |s| > 0 {
      if IsWhitespace(s[0]) {
        SplitEmptyIffBlank(s[1..], []);
        if IsBlank(s[1..]) {
          assert forall i | 1 <= i < |s| :: s[i] == s[1..][i - 1];
        }
      } else {
        SplitEmptyIffBlank(s[1..], cur + [s[0]]);
      }
    }
  }

  // ---------------------------------------------------------------------------
  // trim

  function TrimStart(s: string): (t: string)
    ensures |t| <= |s|
    decreases |s|
  {
    if |s| > 0 && IsWhitespace(s[0]) then TrimStart(s[1..]) else s
  }

  function TrimEnd(s: string): (t: string)
    ensures |t| <= |s|
    decreases |s|
  {
    if |s| > 0 && IsWhitespace(s[|s| - 1]) then TrimEnd(s[..|s| - 1]) else s
  }

  /** `str::trim`: leading and trailing whitespace removed. */
  function Trim(s: string): string {
    TrimEnd(TrimStart(s))
  }

  lemma {:induction false} TrimStartEmptyIffBlank(s: string)
    ensures TrimStart(s) == [] <==> IsBlank(s)
    decreases |s|
  {
    if |s| > 0 && IsWhitespace(s[0]) {
      TrimStartEmptyIffBlank(s[1..]);
      if IsBlank(s[1..]) {
        assert forall i | 1 <= i < |s| :: s[i] == s[1..][i - 1];
      }
    }
  }

  lemma {:induction false} TrimEndEmptyIffBlank(s: string)
    ensures TrimEnd(s) == [] <==> IsBlank(s)
    decreases |s|
  {
    if |s| > 0 && IsWhitespace(s[|s| - 1]) {
      TrimEndEmptyIffBlank(s[..|s| - 1]);
      if IsBlank(s[..|s| - 1]) {
        assert forall i | 0 <= i < |s| - 1 :: s[i] == s[..|s| - 1][i];
      }
    }
  }

  /** `s.trim().is_empty()` holds exactly for blank text. */
  lemma TrimEmptyIffBlank(s: string)
    ensures Trim(s) == [] <==> IsBlank(s)
  {
    TrimStartEmptyIffBlank(s);
    TrimEndEmptyIffBlank(TrimStart(s));
    if IsBlank(TrimStart(s)) && !IsBlank(s) {
      TrimStartKeepsSuffix(s);
    }
  }

  /** `TrimStart(s)` is a suffix of `s` and only whitespace was removed. */
  lemma {:induction false} TrimStartKeepsSuffix(s: string)
    ensures |TrimStart(s)| <= |s|
    ensures s[|s| - |TrimStart(s)|..] == TrimStart(s)
    ensures IsBlank(s[..|s| - |TrimStart(s)|])
    decreases |s|
  {
    if |s| > 0 && IsWhitespace(s[0]) {
      TrimStartKeepsSuffix(s[1..]);
      var n := |s| - |TrimStart(s)|;
      assert s[n..] == s[1..][n - 1..];
      assert forall i | 1 <= i < n :: s[..n][i] == s[1..][..n - 1][i - 1];
    }
  }

  /** Trailing whitespace never changes the tokens. */
  lemma {:induction false} SplitDropsTrailingBlank(s: string, c: char, cur: string)
    requires IsWhitespace(c) && NoWhitespace(cur)
    ensures SplitFrom(s + [c], cur) == SplitFrom(s, cur)
    decreases |s|
  {
    if |s| == 0 {
      assert (s + [c])[1..] == [];
    } else {
      assert (s + [c])[0] == s[0];
      assert (s + [c])[1..] == s[1..] + [c];
      if IsWhitespace(s[0]) {
        SplitDropsTrailingBlank(s[1..], c, []);
      } else {
        SplitDropsTrailingBlank(s[1..], c, cur + [s[0]]);
      }
    }
  }

  lemma {:induction false} SplitIgnoresTrimEnd(s: string, cur: string)
    requires NoWhitespace(cur)
    ensures SplitFrom(TrimEnd(s), cur) == SplitFrom(s, cur)
    decreases |s|
  {
    if |s| > 0 && IsWhitespace(s[|s| - 1]) {
      SplitIgnoresTrimEnd(s[..|s| - 1], cur);
      assert s == s[..|s| - 1] + [s[|s| - 1]];
      SplitDropsTrailingBlank(s[..|s| - 1], s[|s| - 1], cur);
    }
  }

  lemma {:induction false} SplitIgnoresTrimStart(s: string)
    ensures SplitWhitespace(TrimStart(s)) == SplitWhitespace(s)
    decreases |s|
  {
    if |s| > 0 && IsWhitespace(s[0]) {
      SplitIgnoresTrimStart(s[1..]);
    }
  }

  /** `s.trim().split_whitespace()` yields the same tokens as `s.split_whitespace()`. */
  lemma SplitIgnoresTrim(s: string)
    ensures SplitWhitespace(Trim(s)) == SplitWhitespace(s)
  {
    SplitIgnoresTrimEnd(TrimStart(s), []);
    SplitIgnoresTrimStart(s);
  }

  // ---------------------------------------------------------------------------
  // lines

  /** Index of the first `c` in `s`, or `|s|` when there is none. */
  function IndexOf(s: string, c: char): (i: nat)
    ensures i <= |s|
    ensures i < |s| ==> s[i] == c
    ensures forall j | 0 <= j < i :: s[j] != c
    decreases |s|
  {
    if |s| == 0 then 0
    else if s[0] == c then 0
    else 1 + IndexOf(s[1..], c)
  }

  /** A line ending "\r\n" loses its "\r" as well. */
  function StripCr(line: string): string {
    if |line| > 0 && line[|line| - 1] == '\r' then line[..|line| - 1] else line
  }

  /** `str::lines` (and `BufRead::lines`): the text split at each "\n", with a "\r" directly
      before that "\n" dropped; a final "\n" does not start an extra empty line. */
  function Lines(s: string): (lines: seq<string>)
    ensures forall k | 0 <= k < |lines| :: '\n' !in lines[k]
    decreases |s|
  {
    if |s| == 0 then []
    else
      var i := IndexOf(s, '\n');
      if i == |s| then [s] else [StripCr(s[..i])] + Lines(s[i + 1..])
  }

  /** Every line terminated by "\n", the inverse of `Lines`. */
  function Unlines(lines: seq<string>): string
    decreases |lines|
  {
    if |lines| == 0 then [] else lines[0] + "\n" + Unlines(lines[1..])
  }

  /** A line that can be written and read back unchanged. */
  predicate IsLine(l: string) {
    '\n' !in l && (|l| == 0 || l[|l| - 1] != '\r')
  }

  /** `IndexOf` finds the first occurrence. */
  lemma IndexOfFirst(s: string, c: char, i: nat)
    requires i < |s| && s[i] == c
    requires forall j | 0 <= j < i :: s[j] != c
    ensures IndexOf(s, c) == i
  {
  }

  /** A line, its "\n", then more text: the line is the first of `Lines`. */
  lemma LinesCons(l: string, rest: string)
    requires IsLine(l)
    ensures Lines(l + "\n" + rest) == [l] + Lines(rest)
  {
    var s := l + "\n" + rest;
    assert s[|l|] == '\n';
    assert forall j | 0 <= j < |l| :: s[j] == l[j];
    IndexOfFirst(s, '\n', |l|);
    assert s[..|l|] == l;
    assert s[|l| + 1..] == rest;
    assert StripCr(l) == l;
  }

  /** Round trip: `Lines` recovers the lines that `Unlines` terminated. */
  lemma {:induction false} LinesUnlines(lines: seq<string>)
    requires forall k | 0 <= k < |lines| :: IsLine(lines[k])
    ensures Lines(Unlines(lines)) == lines
    decreases |lines|
  {
    if |lines| > 0 {
      LinesCons(lines[0], Unlines(lines[1..]));
      LinesUnlines(lines[1..]);
      assert [lines[0]] + lines[1..] == lines;
    }
  }
}

=== FILE: wrappers.dfy ===
/** Failure-compatible wrappers used for the Rust `Option` and `Result` values of the model. */
module Wrappers {

  /** Rust's `Option<T>`. */
  datatype Option<+T> = None | Some(value: T) {

    /** The wrapped value, or `default` when there is none (Rust's `unwrap_or`). */
    function GetOr(default: T): T {
      match this
      case Some(v) => v
      case None => default
    }
  }

  /** Rust's `Result<T, E>`; usable with `:-` so that `?` reads the same as in the source. */
  datatype Result<+T, +E> = Success(value: T) | Failure(error: E) {

    predicate IsFailure() {
      Failure?
    }

    function PropagateFailure<U>(): Result<U, E>
      requires Failure?
    {
      Failure(error)
    }

    function Extract(): T
      requires Success?
    {
      value
    }
  }

  /** The value under key `k` of `m`, if any: a missing key is a file that cannot be read. */
  function Lookup<K, V>(m: map<K, V>, k: K): (r: Option<V>)
    ensures r.Some? <==> k in m
    ensures r.Some? ==> r.value == m[k]
  {
    if k in m then Some(m[k]) else None
  }
}

/** What running an external command (`pgrep`, `df`, `journalctl`) can yield. */
module Os {

  /** `NotStarted`: `Command::output` itself returned an error (the program could not be spawned).
      `Exited`: the command ran; `success` is the exit status, `stdout`/`stderr` its output,
      already decoded (the source decodes with `from_utf8_lossy`). */
  datatype Exec = NotStarted | Exited(success: bool, stdout: string, stderr: string)
}
